=== FILE: README.md ===
# XPathGen in Dafny

A model of the core of XPathGen, a small Java library that computes, for a
node of a DOM tree, a positional XPath 1.0 location path such as
`/node()[1]/node()[2]/@attr` that selects the node again. The core is two
classes:

- `ChildNumber` computes a node's XPath child number among its siblings. XPath
  sees a run of adjacent text and CDATA siblings as one text node. It has no
  text nodes without content and no document type declarations. So the
  physical DOM index is wrong, and the class counts only the siblings that
  start a new XPath child. For a text sibling it also computes the 1-based character
  offset of its content inside the merged text node.
- `XPathGen.getXPath` walks from the node up to the document. Each level
  contributes `node()[k]`, an attribute contributes `@name`, and a document
  type node is rejected. The same file holds the node predicates `isText`,
  `nodeIsEmptyText`, `isNamespaceAttr` and `getLocalName`.

The Dafny modules follow that structure:

| module | file | contents |
|---|---|---|
| `Wrappers` | wrappers.dfy | `Option` and `Result` |
| `Dom` | dom.dfy | an immutable snapshot of the tree; nodes addressed by their path of child positions |
| `NodeClassifier` | node_classifier.dfy | `isText`, `nodeIsEmptyText`, `getLocalName`, `isNamespaceAttr` |
| `ChildNumbers` | child_numbers.dfy | `incIndex`, `nodesAreTextNodes`, the child number and character offset (closed forms and the Java loops), the constructor's checks |
| `PathSyntax` | path_syntax.dfy | the path grammar: steps, decimal numbers, serialisation and parsing, both round trips |
| `XPathGen` | xpath_gen.dfy | `getXPath`, as a list of steps and as the concatenated string; the usage examples |
| `LogicalView` | logical_view.dfy | XPath's view of a sibling list (coalesced text, no empty text or CDATA, no document type), and the proof that child numbers index it |
| `Resolve` | resolve.dfy | an evaluator of `node()[k]` and `@name` paths over that view, and the proof that the generated path selects its node |

Modelling choices:

- **Node identity.** `isSameNode` is replaced by position. A node is
  `ChildNode(path)`, the list of child positions from the document. An
  attribute is `AttributeNode(owner, index)`. The document is `DocumentNode`.
  A node with no parent that is not the document is `Detached`. A null node is `None`.
- **Sibling lists.** The live `NodeList` that `ChildNumber` keeps becomes an
  immutable sequence, captured when the value is constructed.
- **Errors.** The three `IllegalArgumentException`s are the `Error` values
  `NullNode`, `NoParent` and `DocumentTypeNode`. In the DOM an attribute's
  parent is null, so the constructor rejects attributes, the document and
  detached nodes with `NoParent`.
- **Child numbers.** The child number of the sibling at `p` is the number of
  positions in `0..p` for which `incIndex` holds. The loop in
  `calculateXPathChildNumber` computes exactly this, and
  `CalculateXPathChildNumber` proves it. The number can be 0: an empty text
  node followed by a text node. It can also miss the node: an element, an
  empty text node, then a text node. `LeadingEmptyTextGivesZero` and
  `EmptyTextSharesElementNumber` exhibit both cases. The model keeps this
  arithmetic, as the Java code has it.
- **Selection.** The selection theorems hold for *stable* sibling lists: no
  empty text or CDATA node, and no text sibling directly after a document
  type node. `testTextNodeChildNo` evaluates its numbers against the
  document after `normalize()`, which removes empty text nodes. `PrependIgnoredSibling`
  shows why numbers computed before `normalize()` stay right after it. A
  leading document type node shifts no number. Neither does a leading empty
  text node, as long as the old first sibling is not text.
- **A worked example.** For the siblings `"", <a/>, "1", "2", <!--d-->, "3"`
  the Java arithmetic numbers the element, the texts, the comment and the
  last text 1, 2, 2, 3, 4: the leading empty text never increments the count.
  `testTextNodeChildNo` (ChildNumberTest.java:117-185) computes these numbers
  before `normalize()`. It then asserts that each one selects its node in the
  normalised document. `TextNodeChildNoExample` states the numbers.
- **Idempotence.** Every operation is a function of the snapshot and the
  node, so computing a path twice gives the same result by construction.

## Model

| member | source | states |
|---|---|---|
| `NodeClassifier.IsTextExactlyCharacterData` | src/com/adrianmouat/xpathgen/XPathGen.java:186-195 | `isText` holds exactly for the two kinds of character data, Text and CDATA, and never for a null node |
| `NodeClassifier.NodeIsEmptyText` | src/com/adrianmouat/xpathgen/XPathGen.java:100-103 | empty text is always a Text node with a zero-length value; a CDATA section never is |
| `NodeClassifier.EmptyTextIsZeroSizedText` | src/com/adrianmouat/xpathgen/XPathGen.java:94-103 | both directions of the documented promise: a node is empty text exactly when it is a zero-sized Text node |
| `NodeClassifier.GetLocalName` | src/com/adrianmouat/xpathgen/XPathGen.java:146-153 | the local name when there is one, else the node name; for a name a DOM builds without a namespace, always the node name |
| `NodeClassifier.IsNamespaceAttr` | src/com/adrianmouat/xpathgen/XPathGen.java:163-178 | true exactly for the reserved `xmlns` namespace, for a namespaced attribute with local name `xmlns`, or for a non-namespaced one named `xmlns`; the local name is needed only in the middle case, the one place the Java code dereferences it |
| `NodeClassifier.NamespaceAttrByLocalName` | src/com/adrianmouat/xpathgen/XPathGen.java:146-178 | on names a DOM can build, the test reduces to: reserved namespace, or a local name with the `getLocalName` fallback equal to `xmlns` |
| `NodeClassifier.IsTextExamples` | src/com/adrianmouat/xpathgen/XPathGen.java:186-195 | null, comments and elements are not text; Text and CDATA are |
| `NodeClassifier.EmptyTextExamples` | test/com/adrianmouat/xpathgen/XPathGenTest.java:295-355 | `""` is empty text; `"a"`, `"\r"`, `"\n"`, `"\r\n"` and an empty CDATA section are not |
| `NodeClassifier.NamespaceAttrExamples` | src/com/adrianmouat/xpathgen/XPathGen.java:146-178 | concrete namespace declarations with and without namespace awareness, and the local-name fallback |
| `ChildNumbers.NodesAreTextNodes` | src/com/adrianmouat/xpathgen/ChildNumber.java:120-132 | true exactly when every given node, possibly null, is text or CDATA |
| `ChildNumbers.NewChildNumber` | src/com/adrianmouat/xpathgen/ChildNumber.java:49-60 | a null node fails with `NullNode`; the document, an attribute or a detached node fails with `NoParent`; it succeeds exactly for a child node, on a snapshot of the parent's children, at the node's own position in it |
| `ChildNumbers.IncIndexUnfold` | src/com/adrianmouat/xpathgen/ChildNumber.java:99-112 | a sibling starts a new child exactly when it is not text right after text, not empty text and not a document type node |
| `ChildNumbers.ChildNumber.GetXPath` | src/com/adrianmouat/xpathgen/ChildNumber.java:82-88 | the getter returns the number of child-starting siblings up to and including the node, at most its position plus one |
| `ChildNumbers.ChildNumber.GetXPathCharPos` | src/com/adrianmouat/xpathgen/ChildNumber.java:68-74 | the getter returns 1 after a non-text sibling, and the previous sibling's offset plus its content length after a text sibling |
| `ChildNumbers.ChildNumberStep` | src/com/adrianmouat/xpathgen/ChildNumber.java:99-112 | a sibling's number is its predecessor's plus one exactly when `incIndex` holds, and equal to it exactly when it does not |
| `ChildNumbers.ContinuationSharesNumber` | src/com/adrianmouat/xpathgen/ChildNumber.java:104-105 | a text or CDATA sibling right after another shares its number |
| `ChildNumbers.IgnoredSiblingNeverIncrements` | src/com/adrianmouat/xpathgen/ChildNumber.java:105-108 | an empty text or document type sibling takes its predecessor's number (0 when first) |
| `ChildNumbers.CountIsCardinality` | src/com/adrianmouat/xpathgen/ChildNumber.java:169-184 | the running count over a prefix is the size of the set of its child-starting positions |
| `ChildNumbers.XPathChildNumber` | src/com/adrianmouat/xpathgen/ChildNumber.java:82-88 | `getXPath`: the number of child-starting positions in `0..p`, at most `p + 1` |
| `ChildNumbers.CalculateXPathChildNumber` | src/com/adrianmouat/xpathgen/ChildNumber.java:167-188 | the scan stops at the node's own DOM index and leaves the number of child-starting positions up to and including it |
| `ChildNumbers.ChildNumberMonotone` | src/com/adrianmouat/xpathgen/ChildNumber.java:169-184 | numbers never decrease along the siblings and grow by at most one per sibling |
| `ChildNumbers.CountableNumbersDistinct` | src/com/adrianmouat/xpathgen/ChildNumber.java:169-184 | a sibling that starts a new child gets a number greater than every earlier sibling's |
| `ChildNumbers.CountableNumberPositive` | src/com/adrianmouat/xpathgen/ChildNumber.java:169-178 | a sibling that starts a new child gets a number of at least 1 |
| `ChildNumbers.PrependIgnoredSibling` | test/com/adrianmouat/xpathgen/ChildNumberTest.java:117-185 | a leading document type node shifts no number, and neither does a leading empty text node when the old first sibling is not text |
| `ChildNumbers.TextRunStart` | src/com/adrianmouat/xpathgen/ChildNumber.java:152-159 | where the backward scan stops: every sibling from there to the node is text, and the one before is not |
| `ChildNumbers.XPathCharPos` | src/com/adrianmouat/xpathgen/ChildNumber.java:68-74 | `getXPathCharPos`: at least 1, and exactly 1 when the preceding sibling is not text |
| `ChildNumbers.CharPosStep` | src/com/adrianmouat/xpathgen/ChildNumber.java:149-160 | after a text sibling the offset is that sibling's offset plus the length of its content |
| `ChildNumbers.CalculateXPathTextPosition` | src/com/adrianmouat/xpathgen/ChildNumber.java:149-160 | the loop leaves 1 plus the summed content lengths of the text run before the node |
| `ChildNumbers.SimpleChildNoExample` | test/com/adrianmouat/xpathgen/ChildNumberTest.java:76-112 | three element siblings are numbered 1, 2, 3 |
| `ChildNumbers.TextNodeChildNoExample` | test/com/adrianmouat/xpathgen/ChildNumberTest.java:117-185 | for `"", <a/>, "1", "2", <!--d-->, "3"` the numbers are 1, 2, 2, 3, 4, with offsets 1 and 2 for `"1"` and `"2"` |
| `ChildNumbers.AdjacentTextExample` | src/com/adrianmouat/xpathgen/ChildNumber.java:149-188 | two adjacent texts `"a"`, `"b"` are both child 1, at offsets 1 and 2 |
| `ChildNumbers.TwoInitialTextNodesExample` | test/com/adrianmouat/xpathgen/ChildNumberTest.java:190-227 | `"1234"` and `"5"` are both child 1, at offsets 1 and 5; the element after them is child 2 |
| `ChildNumbers.CDataAndTextExample` | test/com/adrianmouat/xpathgen/XPathGenTest.java:396-409 | text, CDATA, text form one child, at offsets 1, 4 and 7 |
| `PathSyntax.NatStringRoundTrip` | src/com/adrianmouat/xpathgen/XPathGen.java:81 | the decimal form of a number reads back as that number |
| `PathSyntax.StringNatRoundTrip` | src/com/adrianmouat/xpathgen/XPathGen.java:88 | a canonical digit string is the decimal form of its value |
| `PathSyntax.ParseSerialize` | src/com/adrianmouat/xpathgen/XPathGen.java:63-89 | a step list whose attribute names are non-empty and slash-free serialises to a string that parses back to the same steps |
| `PathSyntax.SerializeParse` | src/com/adrianmouat/xpathgen/XPathGen.java:59-92 | a string that parses is exactly the serialisation of what it parses to |
| `PathSyntax.SerializeNoDoubleSlash` | src/com/adrianmouat/xpathgen/XPathGen.java:68-88 | the serialisation never holds `//` |
| `PathSyntax.SerializeExample` | test/com/adrianmouat/xpathgen/XPathGenTest.java:116-118 | `node()[1]`, `node()[2]`, `@attr` serialise to `/node()[1]/node()[2]/@attr`; no steps serialise to `/` |
| `XPathGen.GetXPath` | src/com/adrianmouat/xpathgen/XPathGen.java:59-92 | fails, with the document type error, exactly when a document type node lies on the node's path; otherwise one step per ancestor level, with an `@` step exactly at the end of an attribute's path |
| `XPathGen.GetXPathClosedForm` | src/com/adrianmouat/xpathgen/XPathGen.java:78-89 | below the document, the `i`-th step is `node()[k]` with `k` the child number of the `i`-th node on the path among its siblings |
| `XPathGen.PathExtendsParent` | src/com/adrianmouat/xpathgen/XPathGen.java:63-88 | a node's steps strictly extend its parent's (or its owner element's) by one step; for an attribute that step is `@` with the attribute's node name |
| `XPathGen.XPathString` | src/com/adrianmouat/xpathgen/XPathGen.java:59-92 | the concatenated string, when defined, begins with `/` |
| `XPathGen.XPathStringIsSerialized` | src/com/adrianmouat/xpathgen/XPathGen.java:63-91 | the concatenation fails on the same nodes as the step list and otherwise equals its serialisation |
| `XPathGen.UsageTextPath` | test/com/adrianmouat/xpathgen/XPathGenTest.java:108-110 | in `<a>aa<b attr='test'>b<!-- comment -->c<c/></b>d</a>`, the text `aa` is `node()[1]`, `node()[1]` |
| `XPathGen.UsageElementPath` | test/com/adrianmouat/xpathgen/XPathGenTest.java:112-114 | the element `b` is `node()[1]`, `node()[2]` |
| `XPathGen.UsageAttributePath` | test/com/adrianmouat/xpathgen/XPathGenTest.java:116-118 | the attribute of `b` is `/node()[1]/node()[2]/@attr` |
| `XPathGen.UsageCommentPath` | test/com/adrianmouat/xpathgen/XPathGenTest.java:120-123 | the comment in `b` is `node()[1]`, `node()[2]`, `node()[2]` |
| `XPathGen.DocTypePrologExample` | test/com/adrianmouat/xpathgen/XPathGenTest.java:309-320 | with a DOCTYPE before the root, the DOCTYPE has no path and the root element is `node()[1]` |
| `XPathGen.DocTypePrologTextExample` | test/com/adrianmouat/xpathgen/XPathGenTest.java:309-320 | the text inside that root element is `node()[1]`, `node()[1]` |
| `XPathGen.CommentPrologExample` | test/com/adrianmouat/xpathgen/XPathGenTest.java:325-336 | with a comment before the root, the root element is `node()[2]` |
| `LogicalView.ViewInvariant` | src/com/adrianmouat/xpathgen/ChildNumber.java:167-188 | on a stable list, XPath's view of a prefix has as many entries as the prefix has child-starting positions, and ends with the last sibling or with the text run it closes |
| `LogicalView.ViewGrowsAt` | src/com/adrianmouat/xpathgen/ChildNumber.java:167-188 | more siblings leave each entry of the view in place; only the last text run may grow |
| `LogicalView.ChildNumberSelects` | src/com/adrianmouat/xpathgen/XPathGen.java:50-58 | on a stable list, the child number indexes XPath's view. The entry there is the sibling itself, or, for text, the merged run starting where its run starts, which holds the sibling's content at the character offset |
| `LogicalView.EmptyCDataOvercounts` | src/com/adrianmouat/xpathgen/ChildNumber.java:105-107 | an empty CDATA section is not empty text, so it counts: in `<a/>, <![CDATA[]]>, <b/>` the element `b` gets 3, while XPath has two children |
| `LogicalView.EmptyTextSharesElementNumber` | src/com/adrianmouat/xpathgen/ChildNumber.java:104-108 | in `<a/>, "", "x"` the text gets the element's number, while XPath sees it as child 2 |
| `LogicalView.LeadingEmptyTextGivesZero` | src/com/adrianmouat/xpathgen/ChildNumber.java:169-178 | in `"", "x"` the text gets the number 0 |
| `Resolve.GetXPathSelects` | test/com/adrianmouat/xpathgen/XPathGenTest.java:159-220 | if the path to a child node is stable at every level, holds no DOCTYPE and has only elements as ancestors, its steps evaluate back to the node, or for text to the merged text node starting where its run starts |
| `Resolve.GetXPathSelectsAttribute` | test/com/adrianmouat/xpathgen/XPathGenTest.java:259-272 | the path of any attribute that is not a namespace declaration in the sense of Namespaces in XML (so including `d:xmlns` in an ordinary namespace) selects the first such attribute of its name on its owner, which is the attribute itself when names are unique |
| `Resolve.GetXPathOfDeclarationSelectsNothing` | src/com/adrianmouat/xpathgen/XPathGen.java:63-68 | `getXPath` still gives a namespace declaration an `@name` path, and with unique names that path selects nothing |
| `Resolve.NamespaceAttrVersusDeclaration` | src/com/adrianmouat/xpathgen/XPathGen.java:163-178 | on DOM-built names, `isNamespaceAttr` differs from a real declaration in exactly two cases: it also flags local name `xmlns` in an ordinary namespace, and it misses `xmlns:p` without namespace awareness |
| `Resolve.ForeignXmlnsAttributeExample` | src/com/adrianmouat/xpathgen/XPathGen.java:63-68 | on `<d:a xmlns:d="http://test.com" d:xmlns="v"/>`, `isNamespaceAttr` flags `d:xmlns`, yet its path `/node()[1]/@d:xmlns` selects it |
| `Resolve.DeclarationPathExample` | src/com/adrianmouat/xpathgen/XPathGen.java:63-68 | for `<d:a xmlns:d="http://test.com"/>` the declaration gets the steps `node()[1]`, `@xmlns:d`, which select nothing |
| `Resolve.XPathStringParses` | src/com/adrianmouat/xpathgen/XPathGen.java:59-92 | when the attribute name is non-empty and slash-free, the returned string parses back to the step list, so the string selects what the steps select |

## Left out

- `copyNodeToDoc` (XPathGen.java:115-136) creates nodes in another document through the DOM factory methods. It is not part of the path computation.
- `Example.java` is a command-line demonstration that parses files and prints paths. It does I/O only.
- Parsing XML, `Document.normalize()` and the JAXP XPath evaluator are not modelled. `Resolve.Select` stands in for the evaluator on the `node()[k]` and `@name` subset that the generated paths use.
- Memoisation in `getXPath` and `getXPathCharPos` is not modelled. The model has no cache: the getters compute `XPathChildNumber` and `XPathCharPos` from the snapshot.
- The live `NodeList` is not modelled: later mutation of the tree cannot be observed through the snapshot.
- Null pointer exceptions are preconditions. The Java code throws a `NullPointerException` for `getXPath(null)`, for a detached node, and for an attribute with no owner element. The model requires an attached node instead. It has no separate "detached" error.
- The "node not found" outcome of the child-number loop is not modelled. There, the loop runs to the end and returns the length of the list. The model designates the node by a position that is in the list, so this cannot happen.
- Character offsets are counted in `char`s of a Dafny string. Java's `String.length()` counts UTF-16 code units, so the two differ for characters outside the Basic Multilingual Plane.
- Java's 32-bit `int` overflow in the counters is not modelled. It would need more than 2^31 siblings or characters.
- `XPathGen.XPathString`: its own contract states only the leading `/`. Its full content is stated by `XPathGen.XPathStringIsSerialized` together with the `PathSyntax` round trips.
- `Resolve.GetXPathSelects`: the round trip is proved only for stable sibling lists. `LogicalView.EmptyTextSharesElementNumber` and `LogicalView.LeadingEmptyTextGivesZero` show that the numbers `ChildNumber` computes can miss the node when an empty text node sits next to a text node. `LogicalView.EmptyCDataOvercounts` shows that an empty CDATA section, which XPath does not see, still takes a number, so every later sibling's number is one too high.
- Attribute names in `@name` steps are the attribute's node name, as `XPathGen.getXPath` writes them. The string round trip needs that name to be non-empty and free of `/`. A namespaced attribute whose name repeats on its owner yields an ambiguous step; `XPathGen.getXPath` has the same limitation.
- `Resolve.GetXPathSelectsAttribute`: the round trip excludes namespace declarations (`Resolve.Declaration`: the reserved `xmlns` namespace, or `xmlns` and `xmlns:p` in a document built without namespace awareness). XPath 1.0 (section 5.3) does not list them among an element's attributes. `getXPath` (XPathGen.java:63-68) still emits `/@xmlns:d` for such an attribute, and that path selects nothing (`Resolve.GetXPathOfDeclarationSelectsNothing`).
- `Resolve.GetXPathSelectsAttribute`: `@name` is matched against the attribute's node name as written, prefix included. An XPath processor expands a prefix through the namespace bindings of its evaluation context and rejects an unbound one. So the theorem speaks for an evaluation context that binds each prefix as the document does.
- `Resolve.Declaration` is not `isNamespaceAttr`. The Java test also flags an attribute whose local name is `xmlns` in an ordinary namespace (`d:xmlns`), which XPath lists and the generated path selects; and it misses `xmlns:d` in a document built without namespace awareness. `Resolve.NamespaceAttrVersusDeclaration` states both differences.
- Attribute children are not modelled. In the DOM an `Attr` has Text children whose parent is the `Attr`; `getXPath` gives such a child the path of the attribute followed by `/node()[k]` (XPathGen.java:84-88), which selects nothing, since XPath 1.0 attributes have no children.

=== FILE: child_numbers.dfy ===
/** The XPath child number and character offset of a node among its siblings.

    The parent's child list is an immutable snapshot `s` and the node is
    designated by its physical position `p` in it. Per section 5.7 of
    XPath 1.0 adjacent text and CDATA siblings form one text node, empty text
    nodes are not addressable, and document type declarations are not part of
    the XPath data model (section 5). */
module ChildNumbers {
  import opened Wrappers
  import opened Dom
  import opened NodeClassifier

  predicate TextAt(s: seq<Node>, i: nat)
    requires i < |s|
  {
    IsText(Some(s[i].kind))
  }

  /** `nodesAreTextNodes`: every one of the given (possibly null) nodes is text. */
  function NodesAreTextNodes(nodes: seq<Option<NodeKind>>): (r: bool)
    ensures r <==> forall i :: 0 <= i < |nodes| ==> IsText(nodes[i])
  {
    if |nodes| == 0 then true
    else if !IsText(nodes[0]) then false
    else NodesAreTextNodes(nodes[1..])
  }

  /** `incIndex`: position `i` starts a new XPath child. It does not when it
      continues a text run begun by its predecessor, when it is an empty text
      node, or when it is a document type declaration. */
  predicate IncIndex(s: seq<Node>, i: nat)
    requires i < |s|
  {
    !(|| (i > 0 && NodesAreTextNodes([Some(s[i].kind), Some(s[i - 1].kind)]))
      || NodeIsEmptyText(s[i].kind, s[i].value)
      || s[i].kind == DocumentType)
  }

  /** `IncIndex` with the two-node text test spelled out. */
  lemma IncIndexUnfold(s: seq<Node>, i: nat)
    requires i < |s|
    ensures IncIndex(s, i) <==>
      !(|| (i > 0 && TextAt(s, i) && TextAt(s, i - 1))
        || NodeIsEmptyText(s[i].kind, s[i].value)
        || s[i].kind == DocumentType)
  {
    if i > 0 {
      var pair := [Some(s[i].kind), Some(s[i - 1].kind)];
      assert pair[0] == Some(s[i].kind) && pair[1] == Some(s[i - 1].kind);
    }
  }

  /** The number of positions below `n` that start a new XPath child. */
  function CountUpTo(s: seq<Node>, n: nat): nat
    requires n <= |s|
  {
    if n == 0 then 0 else CountUpTo(s, n - 1) + (if IncIndex(s, n - 1) then 1 else 0)
  }

  /** The positions below `n` that start a new XPath child. */
  ghost function CountedPositions(s: seq<Node>, n: nat): set<nat>
    requires n <= |s|
  {
    set i: nat | i < n && IncIndex(s, i)
  }

  /** The number of naturals below `n` satisfying `f`. */
  ghost function CountWhere(f: nat -> bool, n: nat): nat
  {
    if n == 0 then 0 else CountWhere(f, n - 1) + (if f(n - 1) then 1 else 0)
  }

  /** The naturals below `n` satisfying `f`. */
  ghost function Where(f: nat -> bool, n: nat): set<nat>
  {
    set i: nat | i < n && f(i)
  }

  lemma WhereStep(f: nat -> bool, n: nat)
    ensures f(n) ==> Where(f, n + 1) == Where(f, n) + {n} && n !in Where(f, n)
    ensures !f(n) ==> Where(f, n + 1) == Where(f, n)
  {
    if f(n) {
      assert Where(f, n + 1) == Where(f, n) + {n};
    } else {
      assert Where(f, n + 1) == Where(f, n);
    }
  }

  lemma {:induction false} CountWhereIsCardinality(f: nat -> bool, n: nat)
    ensures CountWhere(f, n) == |Where(f, n)|
  {
    if n > 0 {
      CountWhereIsCardinality(f, n - 1);
      WhereStep(f, n - 1);
    } else {
      assert Where(f, 0) == {};
    }
  }

  lemma {:induction false} CountUpToIsCountWhere(s: seq<Node>, n: nat, f: nat -> bool)
    requires n <= |s|
    requires forall i: nat :: i < |s| ==> f(i) == IncIndex(s, i)
    ensures CountUpTo(s, n) == CountWhere(f, n)
  {
    if n > 0 {
      CountUpToIsCountWhere(s, n - 1, f);
    }
  }

  lemma CountIsCardinality(s: seq<Node>, n: nat)
    requires n <= |s|
    ensures CountUpTo(s, n) == |CountedPositions(s, n)|
  {
    var f := (i: nat) => i < |s| && IncIndex(s, i);
    CountUpToIsCountWhere(s, n, f);
    CountWhereIsCardinality(f, n);
    assert CountedPositions(s, n) == Where(f, n);
  }

  /** The XPath child number of the sibling at `p`: the number of positions
      in `0..p` inclusive that start a new XPath child. */
  function XPathChildNumber(s: seq<Node>, p: nat): (r: nat)
    requires p < |s|
    ensures r == |CountedPositions(s, p + 1)|
    ensures r <= p + 1
  {
    CountIsCardinality(s, p + 1);
    CountBound(s, p + 1);
    CountUpTo(s, p + 1)
  }

  lemma {:induction false} CountBound(s: seq<Node>, n: nat)
    requires n <= |s|
    ensures CountUpTo(s, n) <= n
  {
    if n > 0 {
      CountBound(s, n - 1);
    }
  }

  /** `calculateXPathChildNumber`: scan the siblings from the first, counting
      the positions that start a new XPath child, until the node itself is
      reached; a node that does not start one shares the number of the child
      it continues. Also returns the node's physical index. */
  method CalculateXPathChildNumber(s: seq<Node>, p: nat) returns (childNo: int, domIndex: nat)
    requires p < |s|
    ensures domIndex == p
    ensures childNo == |CountedPositions(s, p + 1)|
  {
    childNo := 1;
    domIndex := 0;
    while domIndex < |s|
      invariant domIndex <= p
      invariant childNo == 1 + CountUpTo(s, domIndex)
    {
      if domIndex == p {
        if !IncIndex(s, domIndex) {
          childNo := childNo - 1;
        }
        break;
      }
      if IncIndex(s, domIndex) {
        childNo := childNo + 1;
      }
      domIndex := domIndex + 1;
    }
    CountIsCardinality(s, p + 1);
  }

  /** The index of the first sibling of the maximal run of text siblings that
      ends just before `p`; `p` itself when `p - 1` is not text. */
  function TextRunStart(s: seq<Node>, p: nat): (j: nat)
    requires p <= |s|
    ensures j <= p
    ensures forall k :: j <= k < p ==> TextAt(s, k)
    ensures j == 0 || !TextAt(s, j - 1)
  {
    if p == 0 || !TextAt(s, p - 1) then p else TextRunStart(s, p - 1)
  }

  /** The summed content lengths of the siblings in `from..to`. */
  function TextLength(s: seq<Node>, from: nat, to: nat): nat
    requires from <= to <= |s|
  {
    if from == to then 0 else TextLength(s, from, to - 1) + |s[to - 1].value|
  }

  /** The 1-based offset, inside the merged text node, at which the content
      of the sibling at `p` begins: one past the content of the text run
      directly before it. */
  function XPathCharPos(s: seq<Node>, p: nat): (r: nat)
    requires p < |s|
    ensures r >= 1
    ensures p == 0 || !TextAt(s, p - 1) ==> r == 1
  {
    1 + TextLength(s, TextRunStart(s, p), p)
  }

  /** Inside a text run the offset grows by the length of the previous
      sibling's content. */
  lemma CharPosStep(s: seq<Node>, p: nat)
    requires p < |s|
    ensures 0 < p && TextAt(s, p - 1) ==> XPathCharPos(s, p) == XPathCharPos(s, p - 1) + |s[p - 1].value|
  {
  }

  /** `calculateXPathTextPosition`: walk back from the node while the
      siblings are text, adding up their content lengths. */
  method CalculateXPathTextPosition(s: seq<Node>, domIndex: nat) returns (charPos: int)
    requires domIndex < |s|
    ensures charPos == 1 + TextLength(s, TextRunStart(s, domIndex), domIndex)
    ensures charPos == XPathCharPos(s, domIndex)
  {
    charPos := 1;
    var i: int := domIndex - 1;
    while i >= 0
      invariant -1 <= i < domIndex
      invariant forall k :: i < k < domIndex ==> TextAt(s, k)
      invariant charPos == 1 + TextLength(s, i + 1, domIndex)
      invariant TextRunStart(s, domIndex) <= i + 1
    {
      if TextAt(s, i) {
        TextLengthPrepend(s, i, domIndex);
        charPos := charPos + |s[i].value|;
      } else {
        break;
      }
      i := i - 1;
    }
  }

  lemma {:induction false} TextLengthPrepend(s: seq<Node>, from: nat, to: nat)
    requires from < to <= |s|
    ensures TextLength(s, from, to) == |s[from].value| + TextLength(s, from + 1, to)
  {
    if from + 1 < to {
      TextLengthPrepend(s, from, to - 1);
    }
  }

  /** A locator bound to one node: the snapshot of its parent's child list
      taken at construction, and the node's position in it. The memoised
      getters of the Java class become pure functions of that snapshot. */
  datatype ChildNumber = ChildNumber(siblings: seq<Node>, position: nat) {

    predicate Valid() {
      position < |siblings|
    }

    /** `getXPath`: the XPath child number, the count of child-starting
        siblings up to and including the node. */
    function GetXPath(): (r: nat)
      requires Valid()
      ensures r == |CountedPositions(siblings, position + 1)|
      ensures r <= position + 1
    {
      XPathChildNumber(siblings, position)
    }

    /** `getXPathCharPos`: the character offset inside the merged text node:
        1 after a non-text sibling, and the previous text sibling's offset
        plus its length after a text sibling. */
    function GetXPathCharPos(): (r: nat)
      requires Valid()
      ensures position == 0 || !TextAt(siblings, position - 1) ==> r == 1
      ensures position > 0 && TextAt(siblings, position - 1) ==>
        r == XPathCharPos(siblings, position - 1) + |siblings[position - 1].value|
    {
      CharPosStep(siblings, position);
      XPathCharPos(siblings, position)
    }
  }

  /** The constructor `ChildNumber(Node)`: a null node and a node without a
      parent are rejected. The document, an attribute (whose parent is null
      in the DOM) and a detached node have no parent. */
  function NewChildNumber(doc: Tree, n: Option<NodeRef>): (r: Result<ChildNumber, Error>)
    requires n.Some? && !n.value.Detached? ==> Attached(doc, n.value)
    ensures n.None? ==> r == Failure(NullNode)
    ensures n.Some? && !n.value.ChildNode? ==> r == Failure(NoParent)
    ensures r.Success? <==> n.Some? && n.value.ChildNode?
    ensures r.Success? ==> r.value.Valid()
    ensures r.Success? ==> r.value.siblings == SiblingsOf(doc, n.value.path)
    ensures r.Success? ==> r.value.position == Last(n.value.path)
    ensures r.Success? ==> r.value.siblings[r.value.position] == NodeAt(doc, n.value.path)
  {
    match n
    case None => Failure(NullNode)
    case Some(ChildNode(path)) => Success(ChildNumber(SiblingsOf(doc, path), Last(path)))
    case Some(_) => Failure(NoParent)
  }

  /** A sibling gets the number of its predecessor, plus one exactly when it
      starts a new XPath child. */
  lemma ChildNumberStep(s: seq<Node>, p: nat)
    requires 0 < p < |s|
    ensures XPathChildNumber(s, p) == XPathChildNumber(s, p - 1) + 1 <==> IncIndex(s, p)
    ensures XPathChildNumber(s, p) == XPathChildNumber(s, p - 1) <==> !IncIndex(s, p)
  {
  }

  /** Adjacent text or CDATA siblings share one child number. */
  lemma ContinuationSharesNumber(s: seq<Node>, p: nat)
    requires 0 < p < |s|
    requires TextAt(s, p - 1) && TextAt(s, p)
    ensures XPathChildNumber(s, p) == XPathChildNumber(s, p - 1)
  {
  }

  /** Child numbers never decrease along the sibling list, and rise by at
      most one per sibling. */
  lemma {:induction false} ChildNumberMonotone(s: seq<Node>, i: nat, j: nat)
    requires i <= j < |s|
    ensures XPathChildNumber(s, i) <= XPathChildNumber(s, j) <= XPathChildNumber(s, i) + (j - i)
    decreases j - i
  {
    if i < j {
      ChildNumberMonotone(s, i, j - 1);
      ChildNumberStep(s, j);
    }
  }

  /** Two distinct siblings that each start a new XPath child get distinct
      numbers, and every such sibling gets a number of at least one. */
  lemma CountableNumbersDistinct(s: seq<Node>, i: nat, j: nat)
    requires i < j < |s|
    requires IncIndex(s, j)
    ensures XPathChildNumber(s, i) < XPathChildNumber(s, j)
  {
    ChildNumberMonotone(s, i, j - 1);
    ChildNumberStep(s, j);
  }

  lemma CountableNumberPositive(s: seq<Node>, p: nat)
    requires p < |s|
    requires IncIndex(s, p)
    ensures XPathChildNumber(s, p) >= 1
  {
    if p > 0 {
      ChildNumberStep(s, p);
    }
  }

  /** An empty text sibling or a document type sibling never moves the
      counter: it shares the number of the sibling before it (0 when first). */
  lemma IgnoredSiblingNeverIncrements(s: seq<Node>, p: nat)
    requires p < |s|
    requires NodeIsEmptyText(s[p].kind, s[p].value) || s[p].kind == DocumentType
    ensures XPathChildNumber(s, p) == if p == 0 then 0 else XPathChildNumber(s, p - 1)
  {
  }

  /** Putting an empty text node or a document type declaration in front of
      the siblings shifts no child number, provided that the old first sibling
      is not text (an empty text node would otherwise join its run). */
  lemma PrependIgnoredSibling(x: Node, s: seq<Node>, p: nat)
    requires x.kind == DocumentType || NodeIsEmptyText(x.kind, x.value)
    requires |s| > 0 && x.kind != DocumentType ==> !TextAt(s, 0)
    requires p < |s|
    ensures XPathChildNumber([x] + s, p + 1) == XPathChildNumber(s, p)
  {
    PrependIgnoredCount(x, s, p + 1);
  }

  lemma {:induction false} PrependIgnoredCount(x: Node, s: seq<Node>, n: nat)
    requires x.kind == DocumentType || NodeIsEmptyText(x.kind, x.value)
    requires |s| > 0 && x.kind != DocumentType ==> !TextAt(s, 0)
    requires n <= |s|
    ensures CountUpTo([x] + s, n + 1) == CountUpTo(s, n)
  {
    var t := [x] + s;
    if n == 0 {
      assert !IncIndex(t, 0);
    } else {
      PrependIgnoredCount(x, s, n - 1);
      assert t[n] == s[n - 1] && t[n - 1] == (if n == 1 then x else s[n - 2]);
      IncIndexUnfold(t, n);
      IncIndexUnfold(s, n - 1);
    }
  }

  /** Siblings `<a/>, <b/>, <c/>`: elements are numbered 1, 2, 3. */
  lemma SimpleChildNoExample(s: seq<Node>)
    requires s == [ElementNode("a", [], []), ElementNode("b", [], []), ElementNode("c", [], [])]
    ensures XPathChildNumber(s, 0) == 1 && XPathChildNumber(s, 1) == 2 && XPathChildNumber(s, 2) == 3
  {
    IncIndexUnfold(s, 0);
    IncIndexUnfold(s, 1);
    ChildNumberStep(s, 1);
    IncIndexUnfold(s, 2);
    ChildNumberStep(s, 2);
  }

  /** Siblings `"", <a/>, "1", "2", <!--d-->, "3"`: the leading empty text is
      skipped, "1" and "2" form one text node, and the offsets locate each
      digit inside its merged text. */
  lemma TextNodeChildNoExample(s: seq<Node>)
    requires s == [TextNode(""), ElementNode("a", [], []), TextNode("1"), TextNode("2"), CommentNode("d"), TextNode("3")]
    ensures XPathChildNumber(s, 1) == 1
    ensures XPathChildNumber(s, 2) == 2 && XPathCharPos(s, 2) == 1
    ensures XPathChildNumber(s, 3) == 2 && XPathCharPos(s, 3) == 2
    ensures XPathChildNumber(s, 4) == 3
    ensures XPathChildNumber(s, 5) == 4 && XPathCharPos(s, 5) == 1
  {
    IncIndexUnfold(s, 0);
    assert XPathChildNumber(s, 0) == 0;
    IncIndexUnfold(s, 1);
    ChildNumberStep(s, 1);
    IncIndexUnfold(s, 2);
    ChildNumberStep(s, 2);
    IncIndexUnfold(s, 3);
    ChildNumberStep(s, 3);
    IncIndexUnfold(s, 4);
    ChildNumberStep(s, 4);
    IncIndexUnfold(s, 5);
    ChildNumberStep(s, 5);
  }

  /** Siblings `"a", "b"`: one child, with offsets 1 and 2. */
  lemma AdjacentTextExample(s: seq<Node>)
    requires s == [TextNode("a"), TextNode("b")]
    ensures XPathChildNumber(s, 0) == XPathChildNumber(s, 1) == 1
    ensures XPathCharPos(s, 0) == 1 && XPathCharPos(s, 1) == 2
  {
    IncIndexUnfold(s, 0);
    IncIndexUnfold(s, 1);
    ChildNumberStep(s, 1);
  }

  /** Siblings `"1234", "5", <a/>`: both texts are child 1, at offsets 1 and 5. */
  lemma TwoInitialTextNodesExample()
    ensures var s := [TextNode("1234"), TextNode("5"), ElementNode("a", [], [])];
      && XPathChildNumber(s, 0) == 1 && XPathCharPos(s, 0) == 1
      && XPathChildNumber(s, 1) == 1 && XPathCharPos(s, 1) == 5
      && XPathChildNumber(s, 2) == 2
  {
  }

  /** Siblings `xxx`, CDATA `yyy`, `zzz`: one text node, offsets 1, 4 and 7. */
  lemma CDataAndTextExample()
    ensures var s := [TextNode("xxx"), CDataNode("yyy"), TextNode("zzz")];
      && XPathChildNumber(s, 0) == 1 && XPathChildNumber(s, 1) == 1 && XPathChildNumber(s, 2) == 1
      && XPathCharPos(s, 0) == 1 && XPathCharPos(s, 1) == 4 && XPathCharPos(s, 2) == 7
  {
  }
}

=== FILE: dom.dfy ===
/** A read-only snapshot of a DOM tree.

    A node is addressed by the sequence of physical child positions that leads
    to it from the document, so every walk up the ancestor chain shortens that
    sequence. Attributes are addressed through their owner element. */
module Dom {
  import opened Wrappers

  /** The DOM node types the core distinguishes. */
  datatype NodeKind =
    | Element
    | Attribute
    | Text
    | CData
    | Comment
    | ProcessingInstruction
    | Document
    | DocumentType

  /** The kinds a node may have when it sits in a parent's child list:
      attributes and documents are never children. */
  type ChildKind = k: NodeKind | k != Attribute && k != Document witness Element

  /** `getNodeName`, `getLocalName` and `getNamespaceURI`; the last two are
      null (None) for nodes built without namespace awareness. */
  datatype Name = Name(nodeName: string, localName: Option<string>, namespaceUri: Option<string>)

  datatype Attr = Attr(name: Name, value: string)

  /** `value` is the node value: the character data of a text, CDATA or
      comment node. */
  datatype Node = Node(kind: ChildKind, name: Name, value: string, attributes: seq<Attr>, children: seq<Node>)

  /** The document node of a snapshot: only its children matter. */
  datatype Tree = Tree(children: seq<Node>)

  /** How a caller designates a node. `Detached` is a node with no parent
      (and not the document). */
  datatype NodeRef =
    | DocumentNode
    | ChildNode(path: seq<nat>)
    | AttributeNode(owner: seq<nat>, index: nat)
    | Detached

  /** The failures the core raises; all three are `IllegalArgumentException`
      in the Java code, told apart by their messages. */
  datatype Error =
    | NullNode           // "Node cannot be null"
    | NoParent           // "Node must have parent"
    | DocumentTypeNode   // "DocumentType nodes cannot be identified with XPath"

  /** Nodes as a parser without namespace awareness builds them. */
  function ElementNode(name: string, attributes: seq<Attr>, children: seq<Node>): Node
  {
    Node(Element, Name(name, None, None), "", attributes, children)
  }

  function AttrNode(name: string, value: string): Attr
  {
    Attr(Name(name, None, None), value)
  }

  function TextNode(value: string): Node
  {
    Node(Text, Name("#text", None, None), value, [], [])
  }

  function CDataNode(value: string): Node
  {
    Node(CData, Name("#cdata-section", None, None), value, [], [])
  }

  function CommentNode(value: string): Node
  {
    Node(Comment, Name("#comment", None, None), value, [], [])
  }

  function DocTypeNode(name: string): Node
  {
    Node(DocumentType, Name(name, None, None), "", [], [])
  }

  function Parent(path: seq<nat>): seq<nat>
    requires |path| > 0
  {
    path[..|path| - 1]
  }

  function Last(path: seq<nat>): nat
    requires |path| > 0
  {
    path[|path| - 1]
  }

  /** `path` leads from the document through existing children. */
  predicate IsPath(doc: Tree, path: seq<nat>)
    decreases |path|, 0
  {
    |path| == 0 || (IsPath(doc, Parent(path)) && Last(path) < |ChildrenAt(doc, Parent(path))|)
  }

  /** The child list of the node at `path` (the document's own when `path` is empty). */
  function ChildrenAt(doc: Tree, path: seq<nat>): seq<Node>
    requires IsPath(doc, path)
    decreases |path|, 2
  {
    if |path| == 0 then doc.children else NodeAt(doc, path).children
  }

  function NodeAt(doc: Tree, path: seq<nat>): Node
    requires IsPath(doc, path) && |path| > 0
    decreases |path|, 1
  {
    ChildrenAt(doc, Parent(path))[Last(path)]
  }

  /** The node's parent's child list, which holds the node itself. */
  function SiblingsOf(doc: Tree, path: seq<nat>): seq<Node>
    requires IsPath(doc, path) && |path| > 0
  {
    ChildrenAt(doc, Parent(path))
  }

  /** The reference designates a node that is attached to `doc`. */
  predicate Attached(doc: Tree, n: NodeRef)
  {
    match n
    case DocumentNode => true
    case ChildNode(path) => |path| > 0 && IsPath(doc, path)
    case AttributeNode(owner, i) => |owner| > 0 && IsPath(doc, owner) && i < |NodeAt(doc, owner).attributes|
    case Detached => false
  }

  lemma {:induction false} ParentIsPath(doc: Tree, path: seq<nat>, i: nat)
    requires IsPath(doc, path) && i <= |path|
    ensures IsPath(doc, path[..i])
    decreases |path|
  {
    if i < |path| {
      assert path[..i] == Parent(path)[..i];
      ParentIsPath(doc, Parent(path), i);
    } else {
      assert path[..i] == path;
    }
  }
}

=== FILE: logical_view.dfy ===
/** XPath's view of a sibling list, and why the child numbers address it.

    XPath 1.0 (section 5) has no document type nodes and no text nodes
    without content, and it sees every maximal run of adjacent text and CDATA siblings as one
    text node (section 5.7). `View` builds that list from the physical
    siblings; `ChildNumberSelects` proves that the child number of a sibling
    indexes the entry that holds it, and that the character offset locates
    its content inside a merged text entry. */
module LogicalView {
  import opened Wrappers
  import opened Dom
  import opened NodeClassifier
  import opened ChildNumbers

  /** One child as XPath sees it: a non-text sibling, by physical index, or a
      run of text siblings, by the index of its first member and the merged
      text. */
  datatype Entry =
    | Single(index: nat)
    | Merged(first: nat, content: string)

  function LastEntry(v: seq<Entry>): Entry
    requires |v| > 0
  {
    v[|v| - 1]
  }

  /** A text or CDATA sibling with no content. XPath has no node for it:
      a text node always holds at least one character (section 5.7). */
  predicate EmptyData(s: seq<Node>, i: nat)
    requires i < |s|
  {
    TextAt(s, i) && |s[i].value| == 0
  }

  /** XPath's view of the first `n` siblings. */
  function View(s: seq<Node>, n: nat): seq<Entry>
    requires n <= |s|
  {
    if n == 0 then []
    else
      var v := View(s, n - 1);
      var x := s[n - 1];
      if x.kind == DocumentType || EmptyData(s, n - 1) then v
      else if TextAt(s, n - 1) then
        if |v| > 0 && LastEntry(v).Merged? then
          v[..|v| - 1] + [Merged(LastEntry(v).first, LastEntry(v).content + x.value)]
        else
          v + [Merged(n - 1, x.value)]
      else
        v + [Single(n - 1)]
  }

  /** The content of the siblings in `from..to`, concatenated. */
  function Concat(s: seq<Node>, from: nat, to: nat): (r: string)
    requires from <= to <= |s|
    ensures |r| == TextLength(s, from, to)
  {
    if from == to then "" else Concat(s, from, to - 1) + s[to - 1].value
  }

  /** Sibling lists on which the child numbers address XPath's view: no empty
      text or CDATA node, and no text sibling right after a document type
      node. */
  predicate Stable(s: seq<Node>)
  {
    && (forall i :: 0 <= i < |s| ==> !EmptyData(s, i))
    && (forall i :: 0 < i < |s| && s[i - 1].kind == DocumentType ==> !TextAt(s, i))
  }

  /** What the view of the first `n` siblings looks like: its length is the
      running count of child-starting positions, and its last entry is the
      last sibling, or the text run that the last sibling closes. */
  predicate ViewShape(s: seq<Node>, n: nat)
    requires n <= |s|
  {
    && |View(s, n)| == CountUpTo(s, n)
    && (n > 0 && s[n - 1].kind != DocumentType ==>
      && |View(s, n)| > 0
      && (TextAt(s, n - 1) ==> LastEntry(View(s, n)) == Merged(TextRunStart(s, n), Concat(s, TextRunStart(s, n), n)))
      && (!TextAt(s, n - 1) ==> LastEntry(View(s, n)) == Single(n - 1)))
  }

  lemma {:induction false} ViewInvariant(s: seq<Node>, n: nat)
    requires Stable(s) && n <= |s|
    ensures ViewShape(s, n)
  {
    if n > 0 {
      ViewInvariant(s, n - 1);
      IncIndexUnfold(s, n - 1);
      var x := s[n - 1];
      assert !EmptyData(s, n - 1);
      if x.kind == DocumentType {
        assert ViewShape(s, n);
      } else if !TextAt(s, n - 1) {
        assert ViewShape(s, n);
      } else if n > 1 && TextAt(s, n - 2) {
        ContinueRunShape(s, n);
      } else {
        StartRunShape(s, n);
      }
    } else {
      assert ViewShape(s, 0);
    }
  }

  /** A text sibling after a text sibling extends the last merged entry. */
  lemma ContinueRunShape(s: seq<Node>, n: nat)
    requires 1 < n <= |s| && TextAt(s, n - 1) && TextAt(s, n - 2)
    requires !EmptyData(s, n - 1)
    requires ViewShape(s, n - 1)
    ensures ViewShape(s, n)
  {
    IncIndexUnfold(s, n - 1);
    assert TextRunStart(s, n) == TextRunStart(s, n - 1);
  }

  /** A text sibling after anything but text and document types opens a new
      merged entry. */
  lemma StartRunShape(s: seq<Node>, n: nat)
    requires 0 < n <= |s| && TextAt(s, n - 1)
    requires n > 1 ==> !TextAt(s, n - 2) && s[n - 2].kind != DocumentType
    requires !EmptyData(s, n - 1)
    requires ViewShape(s, n - 1)
    ensures ViewShape(s, n)
  {
    IncIndexUnfold(s, n - 1);
    assert Concat(s, n - 1, n) == s[n - 1].value;
  }

  /** `b` is `a`, or the same text run grown by later siblings. */
  predicate Refines(a: Entry, b: Entry)
  {
    a == b || (a.Merged? && b.Merged? && a.first == b.first && a.content <= b.content)
  }

  lemma RefinesTransitive(a: Entry, b: Entry, c: Entry)
    requires Refines(a, b) && Refines(b, c)
    ensures Refines(a, c)
  {
  }

  /** One more sibling keeps every entry of the view in place. */
  lemma ViewStepAt(s: seq<Node>, n: nat, i: nat)
    requires 0 < n <= |s| && i < |View(s, n - 1)|
    ensures i < |View(s, n)| && Refines(View(s, n - 1)[i], View(s, n)[i])
  {
  }

  /** Adding siblings keeps every entry of the view in place; only the last
      text run may grow. */
  lemma {:induction false} ViewGrowsAt(s: seq<Node>, m: nat, n: nat, i: nat)
    requires m <= n <= |s| && i < |View(s, m)|
    ensures i < |View(s, n)| && Refines(View(s, m)[i], View(s, n)[i])
    decreases n - m
  {
    if m < n {
      ViewGrowsAt(s, m, n - 1, i);
      ViewStepAt(s, n, i);
      RefinesTransitive(View(s, m)[i], View(s, n - 1)[i], View(s, n)[i]);
    }
  }

  /** `w` appears in `c` starting at the 1-based offset `o`. */
  predicate OccursAt(c: string, w: string, o: nat)
  {
    1 <= o && o - 1 + |w| <= |c| && c[o - 1..o - 1 + |w|] == w
  }

  /** On a stable sibling list the child number of every sibling other than
      a document type node is a valid 1-based index into XPath's view, and the
      entry there is the sibling itself, or, for a text sibling, the merged
      text run that starts where its own run starts and holds its content at
      the character offset. */
  lemma ChildNumberSelects(s: seq<Node>, p: nat)
    requires Stable(s) && p < |s| && s[p].kind != DocumentType
    ensures 1 <= XPathChildNumber(s, p) <= |View(s, |s|)|
    ensures !TextAt(s, p) ==> View(s, |s|)[XPathChildNumber(s, p) - 1] == Single(p)
    ensures TextAt(s, p) ==>
      var e := View(s, |s|)[XPathChildNumber(s, p) - 1];
      && e.Merged?
      && e.first == TextRunStart(s, p)
      && OccursAt(e.content, s[p].value, XPathCharPos(s, p))
  {
    var k := XPathChildNumber(s, p);
    ViewInvariant(s, p + 1);
    var prefix := View(s, p + 1);
    assert k == |prefix| > 0;
    ViewGrowsAt(s, p + 1, |s|, k - 1);
    var e := View(s, |s|)[k - 1];
    assert LastEntry(prefix) == prefix[k - 1];
    if TextAt(s, p) {
      RunEntryHoldsContent(s, p, LastEntry(prefix), e);
    }
  }

  /** The entry a child number selects, without the character offset. */
  lemma ChildNumberEntry(s: seq<Node>, p: nat)
    requires Stable(s) && p < |s| && s[p].kind != DocumentType
    ensures 1 <= XPathChildNumber(s, p) <= |View(s, |s|)|
    ensures var e := View(s, |s|)[XPathChildNumber(s, p) - 1];
      if TextAt(s, p) then e.Merged? && e.first == TextRunStart(s, p) else e == Single(p)
  {
    ChildNumberSelects(s, p);
  }

  /** The grown text run still holds the sibling's content at its offset. */
  lemma RunEntryHoldsContent(s: seq<Node>, p: nat, last: Entry, e: Entry)
    requires p < |s| && TextAt(s, p)
    requires last == Merged(TextRunStart(s, p + 1), Concat(s, TextRunStart(s, p + 1), p + 1))
    requires Refines(last, e)
    ensures e.Merged? && e.first == TextRunStart(s, p)
    ensures OccursAt(e.content, s[p].value, XPathCharPos(s, p))
  {
    RunStartStep(s, p);
    var j := TextRunStart(s, p);
    ConcatStep(s, j, p);
    OccursAfterHead(Concat(s, j, p), s[p].value, last.content, e.content, XPathCharPos(s, p));
  }

  lemma RunStartStep(s: seq<Node>, p: nat)
    requires p < |s| && TextAt(s, p)
    ensures TextRunStart(s, p + 1) == TextRunStart(s, p)
  {
  }

  /** The run's text up to and including `p`, and the offset of `p` in it. */
  lemma ConcatStep(s: seq<Node>, from: nat, p: nat)
    requires from <= p < |s|
    ensures Concat(s, from, p + 1) == Concat(s, from, p) + s[p].value
    ensures from == TextRunStart(s, p) ==> XPathCharPos(s, p) == 1 + |Concat(s, from, p)|
  {
  }

  lemma OccursAfterHead(head: string, w: string, run: string, c: string, o: nat)
    requires run == head + w && run <= c && o == 1 + |head|
    ensures OccursAt(c, w, o)
  {
    assert c[|head|..|head| + |w|] == run[|head|..];
  }

  /** Without stability the child number can miss: in `<a/>, "", "x"` the
      empty text node is skipped but still counts as the text predecessor of
      "x", so "x" gets the element's number. */
  lemma EmptyTextSharesElementNumber(s: seq<Node>)
    requires s == [ElementNode("a", [], []), TextNode(""), TextNode("x")]
    ensures !Stable(s)
    ensures XPathChildNumber(s, 2) == XPathChildNumber(s, 0) == 1
    ensures View(s, |s|) == [Single(0), Merged(2, "x")]
  {
    assert EmptyData(s, 1);
    ThreeSiblingNumbers(s);
    ThreeSiblingView(s);
  }

  /** The Java arithmetic on three siblings whose middle one is empty data. */
  lemma ThreeSiblingNumbers(s: seq<Node>)
    requires |s| == 3 && s[0].kind == Element && TextAt(s, 1) && |s[1].value| == 0
    ensures XPathChildNumber(s, 0) == 1
    ensures s[1].kind == Text ==> XPathChildNumber(s, 1) == 1
    ensures s[1].kind == CData ==> XPathChildNumber(s, 1) == 2
    ensures s[2].kind == Text ==> XPathChildNumber(s, 2) == XPathChildNumber(s, 1)
    ensures s[2].kind == Element ==> XPathChildNumber(s, 2) == XPathChildNumber(s, 1) + 1
  {
    IncIndexUnfold(s, 0);
    IncIndexUnfold(s, 1);
    IncIndexUnfold(s, 2);
    ChildNumberStep(s, 1);
    ChildNumberStep(s, 2);
  }

  /** XPath's view of three siblings whose middle one is empty data. */
  lemma ThreeSiblingView(s: seq<Node>)
    requires |s| == 3 && s[0].kind == Element && EmptyData(s, 1)
    ensures TextAt(s, 2) && |s[2].value| > 0 ==> View(s, |s|) == [Single(0), Merged(2, s[2].value)]
    ensures s[2].kind == Element ==> View(s, |s|) == [Single(0), Single(2)]
  {
    assert View(s, 1) == [Single(0)];
    assert View(s, 2) == [Single(0)];
  }

  /** An empty CDATA section is not empty text, so it counts as a child:
      in `<a/>, <![CDATA[]]>, <b/>` the element `b` gets the number 3, past
      the end of XPath's two children. */
  lemma EmptyCDataOvercounts(s: seq<Node>)
    requires s == [ElementNode("a", [], []), CDataNode(""), ElementNode("b", [], [])]
    ensures !Stable(s)
    ensures XPathChildNumber(s, 2) == 3
    ensures View(s, |s|) == [Single(0), Single(2)]
  {
    assert EmptyData(s, 1);
    ThreeSiblingNumbers(s);
    ThreeSiblingView(s);
  }

  /** And in `"", "x"` the text gets the number 0, which selects nothing. */
  lemma LeadingEmptyTextGivesZero(t: seq<Node>)
    requires t == [TextNode(""), TextNode("x")]
    ensures !Stable(t)
    ensures XPathChildNumber(t, 1) == 0
  {
    assert EmptyData(t, 0);
    IncIndexUnfold(t, 0);
    IncIndexUnfold(t, 1);
    ChildNumberStep(t, 1);
  }
}

=== FILE: node_classifier.dfy ===
/** The node predicates shared by the sibling indexer and the path builder:
    text-ness, empty text, namespace declarations and local names. */
module NodeClassifier {
  import opened Wrappers
  import opened Dom

  /** The namespace bound to the `xmlns` prefix (section 3 of Namespaces in XML 1.0). */
  const XMLNS: string := "http://www.w3.org/2000/xmlns/"

  /** `isText`: the node is one of the two kinds of character data that
      XPath merges into text nodes; a null node (None) is not text. */
  predicate IsText(kind: Option<NodeKind>)
  {
    kind.Some? && (kind.value == Text || kind.value == CData)
  }

  /** `isText` for every kind: exactly the two kinds of character data, and
      never a null node. */
  lemma IsTextExactlyCharacterData(kind: Option<NodeKind>)
    ensures IsText(kind) <==> kind == Some(Text) || kind == Some(CData)
    ensures IsText(kind) ==> kind.Some?
  {
  }

  /** `nodeIsEmptyText`: a Text node whose value has length zero. */
  function NodeIsEmptyText(kind: NodeKind, value: string): (r: bool)
    ensures r ==> IsText(Some(kind))
    ensures r ==> |value| == 0
    ensures kind == CData ==> !r
  {
    kind == Text && |value| == 0
  }

  /** The documented promise of `nodeIsEmptyText`, both directions: a node
      is empty text exactly when it is a zero-sized Text node. */
  lemma EmptyTextIsZeroSizedText(kind: NodeKind, value: string)
    ensures NodeIsEmptyText(kind, value) <==> kind == Text && |value| == 0
  {
  }

  /** `getLocalName`: the local name, or the node name when the node was
      built without namespace awareness. */
  function GetLocalName(name: Name): (r: string)
    ensures name.localName.Some? ==> r == name.localName.value
    ensures name.localName.None? ==> r == name.nodeName
    ensures DomConsistent(name) && name.namespaceUri.None? ==> r == name.nodeName
  {
    match name.localName
    case Some(local) => local
    case None => name.nodeName
  }

  /** `isNamespaceAttr`. The Java code dereferences the local name only when
      the namespace is present and is not `XMLNS`, so only that case needs a
      local name. */
  function IsNamespaceAttr(name: Name): (r: bool)
    requires name.namespaceUri.Some? && name.namespaceUri.value != XMLNS ==> name.localName.Some?
    ensures r <==>
      || name.namespaceUri == Some(XMLNS)
      || (name.namespaceUri.Some? && name.localName == Some("xmlns"))
      || (name.namespaceUri.None? && name.nodeName == "xmlns")
  {
    if name.namespaceUri.Some? then
      if name.namespaceUri.value == XMLNS then true
      else name.localName.value == "xmlns"
    else
      name.nodeName == "xmlns"
  }

  /** What a DOM implementation guarantees of a name: a node created with a
      namespace has a local name, and a node created with a null namespace
      has no prefix, so its local name (if any) is its node name. */
  predicate DomConsistent(name: Name)
  {
    && (name.namespaceUri.Some? ==> name.localName.Some?)
    && (name.namespaceUri.None? && name.localName.Some? ==> name.localName.value == name.nodeName)
  }

  /** On DOM-consistent names the three cases of `IsNamespaceAttr` collapse
      to: the reserved namespace, or a local name (with fallback) of `xmlns`. */
  lemma NamespaceAttrByLocalName(name: Name)
    requires DomConsistent(name)
    ensures IsNamespaceAttr(name) <==> name.namespaceUri == Some(XMLNS) || GetLocalName(name) == "xmlns"
  {
  }

  /** A null node and a comment are not text; text and CDATA are. */
  lemma IsTextExamples()
    ensures !IsText(None) && !IsText(Some(Comment)) && !IsText(Some(Element))
    ensures IsText(Some(Text)) && IsText(Some(CData))
  {
  }

  /** Only a zero-length Text node is empty text: a line break is not, and
      neither is an empty CDATA section. */
  lemma EmptyTextExamples()
    ensures NodeIsEmptyText(Text, "") && !NodeIsEmptyText(Text, "a")
    ensures !NodeIsEmptyText(Text, "\r") && !NodeIsEmptyText(Text, "\n") && !NodeIsEmptyText(Text, "\r\n")
    ensures !NodeIsEmptyText(CData, "")
  {
  }

  /** Namespace declarations with and without namespace awareness, and the
      local-name fallback. */
  lemma NamespaceAttrExamples()
    ensures IsNamespaceAttr(Name("xmlns", None, None))
    ensures IsNamespaceAttr(Name("xmlns:d", Some("d"), Some(XMLNS)))
    ensures !IsNamespaceAttr(Name("attr", Some("attr"), None))
    ensures !IsNamespaceAttr(Name("d:attr", Some("attr"), Some("http://test.com")))
    ensures GetLocalName(Name("d:a", Some("a"), Some("http://test.com"))) == "a"
    ensures GetLocalName(Name("d:a", None, None)) == "d:a"
  {
  }
}

=== FILE: path_syntax.dfy ===
/** The textual form of a generated location path:

      Path := "/" | "/" Step ("/" Step)*
      Step := "node()[" Integer "]" | "@" Name

    with decimal integers without leading zeros. `Serialize` writes a list of
    steps, `Parse` reads one back, and the two are inverse on well-formed
    steps and on every string `Parse` accepts. */
module PathSyntax {
  import opened Wrappers

  /** One location step: `node()[k]` or `@name`. */
  datatype Step = NodeStep(position: nat) | AttrStep(name: string)

  predicate IsDigit(c: char)
  {
    '0' <= c <= '9'
  }

  predicate AllDigits(d: string)
  {
    forall i :: 0 <= i < |d| ==> IsDigit(d[i])
  }

  /** A decimal numeral as Java's `int`-to-string writes a non-negative value. */
  predicate CanonicalDigits(d: string)
  {
    |d| > 0 && AllDigits(d) && (d[0] == '0' ==> |d| == 1)
  }

  function DigitChar(d: nat): (c: char)
    requires d < 10
    ensures IsDigit(c)
  {
    (48 + d) as char
  }

  function DigitValue(c: char): (d: nat)
    requires IsDigit(c)
    ensures d < 10
  {
    c as int - 48
  }

  /** Decimal notation of `n`. */
  function NatToString(n: nat): (r: string)
    ensures CanonicalDigits(r)
  {
    if n < 10 then [DigitChar(n)] else NatToString(n / 10) + [DigitChar(n % 10)]
  }

  /** The value of a string of decimal digits. */
  function StringToNat(d: string): nat
    requires AllDigits(d)
  {
    if |d| == 0 then 0 else StringToNat(d[..|d| - 1]) * 10 + DigitValue(d[|d| - 1])
  }

  lemma {:induction false} NatStringRoundTrip(n: nat)
    ensures StringToNat(NatToString(n)) == n
  {
    if n >= 10 {
      NatStringRoundTrip(n / 10);
      var r := NatToString(n);
      assert r[..|r| - 1] == NatToString(n / 10);
    }
  }

  lemma {:induction false} LeadingDigitPositive(d: string)
    requires |d| > 0 && AllDigits(d) && d[0] != '0'
    ensures StringToNat(d) >= 1
  {
    if |d| > 1 {
      LeadingDigitPositive(d[..|d| - 1]);
    }
  }

  lemma {:induction false} StringNatRoundTrip(d: string)
    requires CanonicalDigits(d)
    ensures NatToString(StringToNat(d)) == d
  {
    if |d| > 1 {
      var front := d[..|d| - 1];
      LeadingDigitPositive(front);
      StringNatRoundTrip(front);
      var n := StringToNat(d);
      assert n / 10 == StringToNat(front) && n % 10 == DigitValue(d[|d| - 1]);
      assert d == front + [d[|d| - 1]];
    }
  }

  function StepText(st: Step): string
  {
    match st
    case NodeStep(k) => "node()[" + NatToString(k) + "]"
    case AttrStep(name) => "@" + name
  }

  /** The steps, each preceded by a slash. */
  function Join(steps: seq<Step>): string
  {
    if |steps| == 0 then "" else Join(steps[..|steps| - 1]) + "/" + StepText(steps[|steps| - 1])
  }

  /** The path string: the root path `/` for no steps. */
  function Serialize(steps: seq<Step>): string
  {
    if |steps| == 0 then "/" else Join(steps)
  }

  /** An attribute name can be written as a step: it is not empty and holds no slash. */
  predicate WellFormedName(name: string)
  {
    |name| > 0 && forall i :: 0 <= i < |name| ==> name[i] != '/'
  }

  predicate WellFormedSteps(steps: seq<Step>)
  {
    forall i :: 0 <= i < |steps| && steps[i].AttrStep? ==> WellFormedName(steps[i].name)
  }

  /** The index of the first slash in `s`, or `|s|` when there is none. */
  function FirstSlash(s: string): (i: nat)
    ensures i <= |s|
  {
    if |s| == 0 then 0 else if s[0] == '/' then 0 else 1 + FirstSlash(s[1..])
  }

  function ParseStep(seg: string): Option<Step>
  {
    if |seg| >= 1 && seg[0] == '@' then
      if |seg| >= 2 then Some(AttrStep(seg[1..])) else None
    else if |seg| >= 9 && seg[..7] == "node()[" && seg[|seg| - 1] == ']' && CanonicalDigits(seg[7..|seg| - 1]) then
      Some(NodeStep(StringToNat(seg[7..|seg| - 1])))
    else
      None
  }

  /** Reads `Step ("/" Step)*`. */
  function ParseSteps(s: string): Option<seq<Step>>
    decreases |s|
  {
    var i := FirstSlash(s);
    var st :- ParseStep(s[..i]);
    if i == |s| then Some([st])
    else
      var rest :- ParseSteps(s[i + 1..]);
      Some([st] + rest)
  }

  /** Reads a path string; None when it does not follow the grammar. */
  function Parse(str: string): Option<seq<Step>>
  {
    if str == "/" then Some([])
    else if |str| >= 1 && str[0] == '/' then ParseSteps(str[1..])
    else None
  }

  lemma {:induction false} JoinCons(st: Step, rest: seq<Step>)
    ensures Join([st] + rest) == "/" + (StepText(st) + Join(rest))
    decreases |rest|
  {
    var all := [st] + rest;
    if |rest| > 0 {
      var front, last := rest[..|rest| - 1], rest[|rest| - 1];
      JoinCons(st, front);
      assert all[..|all| - 1] == [st] + front && all[|all| - 1] == last;
      assert Join(all) == Join([st] + front) + "/" + StepText(last);
      Regroup("/", StepText(st), Join(front), "/", StepText(last));
    } else {
      assert all[..0] == [];
    }
  }

  lemma Regroup(a: string, b: string, c: string, d: string, e: string)
    ensures (a + (b + c)) + d + e == a + (b + (c + d + e))
  {
  }

  lemma StepTextHasNoSlash(st: Step)
    requires st.AttrStep? ==> WellFormedName(st.name)
    ensures |StepText(st)| > 0
    ensures forall i :: 0 <= i < |StepText(st)| ==> StepText(st)[i] != '/'
  {
    if st.NodeStep? {
      var d := NatToString(st.position);
      assert forall i :: 0 <= i < |d| ==> IsDigit(d[i]);
    }
  }

  lemma ParseStepText(st: Step)
    requires st.AttrStep? ==> WellFormedName(st.name)
    ensures ParseStep(StepText(st)) == Some(st)
  {
    var seg := StepText(st);
    match st
    case NodeStep(k) =>
      var d := NatToString(k);
      assert seg[..7] == "node()[" && seg[7..|seg| - 1] == d;
      NatStringRoundTrip(k);
    case AttrStep(name) =>
      assert seg[1..] == name;
  }

  lemma StepTextParse(seg: string, st: Step)
    requires ParseStep(seg) == Some(st)
    ensures StepText(st) == seg
  {
    if st.NodeStep? {
      var d := seg[7..|seg| - 1];
      StringNatRoundTrip(d);
      assert seg == seg[..7] + d + [seg[|seg| - 1]];
    } else {
      assert seg == [seg[0]] + seg[1..];
    }
  }

  lemma {:induction false} FirstSlashIsFirst(s: string)
    ensures forall k :: 0 <= k < FirstSlash(s) ==> s[k] != '/'
    ensures FirstSlash(s) < |s| ==> s[FirstSlash(s)] == '/'
  {
    if |s| > 0 && s[0] != '/' {
      FirstSlashIsFirst(s[1..]);
      forall k | 0 < k < FirstSlash(s)
        ensures s[k] != '/'
      {
        assert s[k] == s[1..][k - 1];
      }
    }
  }

  lemma {:induction false} FirstSlashAt(s: string, i: nat)
    requires i <= |s|
    requires forall k :: 0 <= k < i ==> s[k] != '/'
    requires i < |s| ==> s[i] == '/'
    ensures FirstSlash(s) == i
  {
    FirstSlashIsFirst(s);
  }

  /** `ParseSteps` on a string whose first slash is at `i`: the segment
      before it is one step, and the text after it holds the others. */
  lemma ParseStepsUnfold(s: string, i: nat)
    requires FirstSlash(s) == i
    ensures ParseStep(s[..i]).None? ==> ParseSteps(s) == None
    ensures ParseStep(s[..i]).Some? && i == |s| ==> ParseSteps(s) == Some([ParseStep(s[..i]).value])
    ensures ParseStep(s[..i]).Some? && i < |s| && ParseSteps(s[i + 1..]).None? ==> ParseSteps(s) == None
    ensures ParseStep(s[..i]).Some? && i < |s| && ParseSteps(s[i + 1..]).Some? ==>
      ParseSteps(s) == Some([ParseStep(s[..i]).value] + ParseSteps(s[i + 1..]).value)
  {
  }

  lemma FirstSlashGlue(a: string, b: string)
    requires forall k :: 0 <= k < |a| ==> a[k] != '/'
    ensures FirstSlash(a + ("/" + b)) == |a|
    ensures (a + ("/" + b))[..|a|] == a && (a + ("/" + b))[|a| + 1..] == b
  {
    FirstSlashAt(a + ("/" + b), |a|);
  }

  lemma ParseStepsOfSegment(a: string, st: Step)
    requires forall k :: 0 <= k < |a| ==> a[k] != '/'
    requires ParseStep(a) == Some(st)
    ensures ParseSteps(a) == Some([st])
  {
    FirstSlashAt(a, |a|);
    assert a[..|a|] == a;
    ParseStepsUnfold(a, |a|);
  }

  lemma ParseStepsOfGlue(a: string, b: string, st: Step, rest: seq<Step>)
    requires forall k :: 0 <= k < |a| ==> a[k] != '/'
    requires ParseStep(a) == Some(st)
    requires ParseSteps(b) == Some(rest)
    ensures ParseSteps(a + ("/" + b)) == Some([st] + rest)
  {
    FirstSlashGlue(a, b);
    ParseStepsUnfold(a + ("/" + b), |a|);
  }

  lemma {:induction false} ParseJoin(steps: seq<Step>)
    requires |steps| > 0 && WellFormedSteps(steps)
    ensures ParseSteps(StepText(steps[0]) + Join(steps[1..])) == Some(steps)
    decreases |steps|
  {
    if |steps| == 1 {
      ParseJoinSingle(steps);
    } else {
      var st, rest := steps[0], steps[1..];
      WellFormedTail(steps);
      ParseJoin(rest);
      SplitFirst(rest);
      ParseJoinStep(st, rest[0], rest[1..]);
      SplitFirst(steps);
    }
  }

  lemma SplitFirst<T>(s: seq<T>)
    requires |s| > 0
    ensures s == [s[0]] + s[1..]
  {
  }

  /** One more step in front of a list that parses back. */
  lemma ParseJoinStep(st: Step, next: Step, tail: seq<Step>)
    requires st.AttrStep? ==> WellFormedName(st.name)
    requires ParseSteps(StepText(next) + Join(tail)) == Some([next] + tail)
    ensures ParseSteps(StepText(st) + Join([next] + tail)) == Some([st] + ([next] + tail))
  {
    StepTextHasNoSlash(st);
    ParseStepText(st);
    JoinCons(next, tail);
    ParseStepsOfGlue(StepText(st), StepText(next) + Join(tail), st, [next] + tail);
  }

  lemma ParseJoinSingle(steps: seq<Step>)
    requires |steps| == 1 && WellFormedSteps(steps)
    ensures ParseSteps(StepText(steps[0]) + Join(steps[1..])) == Some(steps)
  {
    var st := steps[0];
    StepTextHasNoSlash(st);
    ParseStepText(st);
    ParseStepsOfSegment(StepText(st), st);
    assert steps[1..] == [];
    assert StepText(st) + Join(steps[1..]) == StepText(st);
    assert steps == [st];
  }

  lemma WellFormedTail(steps: seq<Step>)
    requires |steps| > 0 && WellFormedSteps(steps)
    ensures WellFormedSteps(steps[1..])
  {
    forall i | 0 <= i < |steps| - 1 && steps[1..][i].AttrStep?
      ensures WellFormedName(steps[1..][i].name)
    {
      assert steps[1..][i] == steps[i + 1];
    }
  }

  lemma SerializeCons(steps: seq<Step>)
    requires |steps| > 0
    ensures Serialize(steps) == "/" + (StepText(steps[0]) + Join(steps[1..]))
  {
    JoinCons(steps[0], steps[1..]);
    assert steps == [steps[0]] + steps[1..];
  }

  /** Reading back a serialised well-formed step list gives the same steps. */
  lemma ParseSerialize(steps: seq<Step>)
    requires WellFormedSteps(steps)
    ensures Parse(Serialize(steps)) == Some(steps)
  {
    if |steps| > 0 {
      var str := Serialize(steps);
      var body := StepText(steps[0]) + Join(steps[1..]);
      SerializeCons(steps);
      assert str[1..] == body;
      ParseJoin(steps);
    }
  }

  /** What a successful `ParseSteps` read: the first segment, then the rest. */
  lemma ParseStepsShape(s: string, steps: seq<Step>)
    requires ParseSteps(s) == Some(steps)
    ensures |steps| > 0 && ParseStep(s[..FirstSlash(s)]) == Some(steps[0])
    ensures FirstSlash(s) == |s| ==> |steps| == 1
    ensures FirstSlash(s) < |s| ==> ParseSteps(s[FirstSlash(s) + 1..]) == Some(steps[1..])
  {
    ParseStepsUnfold(s, FirstSlash(s));
  }

  lemma JoinGlue(st: Step, rest: seq<Step>, a: string, b: string)
    requires StepText(st) == a
    requires |rest| == 0 ==> b == []
    requires |rest| > 0 ==> Join(rest) == "/" + b
    ensures |rest| == 0 ==> Join([st] + rest) == "/" + a
    ensures |rest| > 0 ==> Join([st] + rest) == "/" + (a + ("/" + b))
  {
    JoinCons(st, rest);
  }

  lemma SplitAtSlash(s: string, i: nat)
    requires i < |s| && s[i] == '/'
    ensures s == s[..i] + ("/" + s[i + 1..])
  {
  }

  lemma {:induction false} JoinParse(s: string, steps: seq<Step>)
    requires ParseSteps(s) == Some(steps)
    ensures Join(steps) == "/" + s
    decreases |s|
  {
    var i := FirstSlash(s);
    ParseStepsShape(s, steps);
    FirstSlashIsFirst(s);
    var st, rest := steps[0], steps[1..];
    StepTextParse(s[..i], st);
    assert steps == [st] + rest;
    if i == |s| {
      JoinGlue(st, rest, s[..i], []);
      assert s[..i] == s;
    } else {
      JoinParse(s[i + 1..], rest);
      JoinGlue(st, rest, s[..i], s[i + 1..]);
      SplitAtSlash(s, i);
    }
  }

  /** Every string `Parse` accepts is the serialisation of what it read, so
      the notation has one spelling per step list. */
  lemma SerializeParse(str: string, steps: seq<Step>)
    requires Parse(str) == Some(steps)
    ensures Serialize(steps) == str
  {
    if str != "/" {
      JoinParse(str[1..], steps);
      assert |steps| > 0;
      assert str == "/" + str[1..];
    }
  }

  /** No two slashes are adjacent, so a path never starts with `//`. */
  predicate NoDoubleSlash(str: string)
  {
    forall i :: 0 <= i < |str| - 1 ==> !(str[i] == '/' && str[i + 1] == '/')
  }

  lemma {:induction false} JoinNoDoubleSlash(steps: seq<Step>)
    requires WellFormedSteps(steps)
    ensures NoDoubleSlash(Join(steps))
    ensures |steps| > 0 ==> Join(steps)[|Join(steps)| - 1] != '/'
    decreases |steps|
  {
    if |steps| > 0 {
      var front := steps[..|steps| - 1];
      var st := steps[|steps| - 1];
      assert WellFormedSteps(front) by {
        forall i | 0 <= i < |front| && front[i].AttrStep?
          ensures WellFormedName(front[i].name)
        {
          assert front[i] == steps[i];
        }
      }
      JoinNoDoubleSlash(front);
      StepTextHasNoSlash(st);
      var a, t := Join(front), StepText(st);
      var r := a + "/" + t;
      forall i | 0 <= i < |r| - 1
        ensures !(r[i] == '/' && r[i + 1] == '/')
      {
        if i < |a| - 1 {
          assert r[i] == a[i] && r[i + 1] == a[i + 1];
        } else if i == |a| - 1 {
          assert r[i] == a[i];
        } else {
          assert r[i + 1] == t[i - |a|];
        }
      }
    }
  }

  lemma SerializeNoDoubleSlash(steps: seq<Step>)
    requires WellFormedSteps(steps)
    ensures Serialize(steps)[0] == '/'
    ensures NoDoubleSlash(Serialize(steps))
  {
    JoinNoDoubleSlash(steps);
    if |steps| > 0 {
      JoinCons(steps[0], steps[1..]);
      assert steps == [steps[0]] + steps[1..];
    }
  }

  lemma DigitStrings()
    ensures NatToString(1) == "1" && NatToString(2) == "2" && NatToString(12) == "12"
  {
  }

  lemma JoinSnoc(front: seq<Step>, st: Step)
    ensures Join(front + [st]) == Join(front) + "/" + StepText(st)
  {
    assert (front + [st])[..|front|] == front;
  }

  lemma StepTextExamples()
    ensures StepText(NodeStep(1)) == "node()[1]" && StepText(NodeStep(2)) == "node()[2]"
    ensures StepText(AttrStep("attr")) == "@attr"
  {
    DigitStrings();
  }

  lemma JoinExampleOne()
    ensures Join([NodeStep(1)]) == "/node()[1]"
  {
    StepTextExamples();
    JoinSnoc([], NodeStep(1));
    assert [] + [NodeStep(1)] == [NodeStep(1)];
  }

  lemma JoinExampleTwo()
    ensures Join([NodeStep(1), NodeStep(2)]) == "/node()[1]/node()[2]"
  {
    StepTextExamples();
    JoinExampleOne();
    JoinSnoc([NodeStep(1)], NodeStep(2));
    assert [NodeStep(1)] + [NodeStep(2)] == [NodeStep(1), NodeStep(2)];
  }

  lemma SerializeExample()
    ensures Serialize([]) == "/"
    ensures Serialize([NodeStep(1), NodeStep(2), AttrStep("attr")]) == "/node()[1]/node()[2]/@attr"
  {
    var front, st := [NodeStep(1), NodeStep(2)], AttrStep("attr");
    assert front + [st] == [NodeStep(1), NodeStep(2), AttrStep("attr")];
    JoinSnoc(front, st);
    JoinExampleTwo();
    StepTextExamples();
    GlueExample(Join(front), StepText(st));
  }

  lemma GlueExample(a: string, b: string)
    requires a == "/node()[1]/node()[2]" && b == "@attr"
    ensures a + "/" + b == "/node()[1]/node()[2]/@attr"
  {
  }
}

=== FILE: resolve.dfy ===
/** Reading a generated path back against the document.

    `Select` evaluates a location path of `node()[k]` and `@name` steps from
    the root the way an XPath 1.0 processor does on the data model of
    section 5: `node()[k]` picks the `k`-th entry of the context node's
    children as `View` lists them, and `@name` picks the attribute of that
    name among those that are not namespace declarations (section 5.3).
    Names are compared as written, prefix included; an XPath processor
    expands a prefix through the bindings of its evaluation context, so the
    two agree when that context binds each prefix as the document does.

    The theorems below show that the path `GetXPath` builds for a node
    selects that node again (or, for a text sibling, the merged text node
    holding it), and that the string form reads back as the same steps. */
module Resolve {
  import opened Wrappers
  import opened Dom
  import opened NodeClassifier
  import opened ChildNumbers
  import opened LogicalView
  import opened PathSyntax
  import opened XPathGen

  /** What a path selects: the document (the empty path) or a non-text node,
      by physical path; a merged text node, by its parent and the position
      of the first sibling of its run; or an attribute. */
  datatype Selected =
    | SNode(path: seq<nat>)
    | SText(parent: seq<nat>, first: nat)
    | SAttribute(owner: seq<nat>, index: nat)

  /** A namespace declaration in the sense of section 3 of Namespaces in XML
      1.0: an attribute in the reserved namespace, or, in a document built
      without namespace awareness, one named `xmlns` or `xmlns:` followed by
      a prefix. XPath 1.0 does not list these among an element's attributes
      (section 5.3). An attribute whose local name is `xmlns` in some other
      namespace, such as `d:xmlns`, is an ordinary attribute; `isNamespaceAttr`
      disagrees on it and on the second case (see
      `NamespaceAttrVersusDeclaration`). */
  predicate Declaration(name: Name)
  {
    || name.namespaceUri == Some(XMLNS)
    || (name.namespaceUri.None? && (name.nodeName == "xmlns" || "xmlns:" <= name.nodeName))
  }

  /** Where `isNamespaceAttr` and the declarations XPath hides part ways, on
      the names a DOM builds: the Java test also flags an attribute called
      `xmlns` in an ordinary namespace, and misses `xmlns:p` in a document
      built without namespace awareness. Everywhere else they agree. */
  lemma NamespaceAttrVersusDeclaration(name: Name)
    requires DomConsistent(name)
    ensures IsNamespaceAttr(name) && !Declaration(name) <==>
      name.namespaceUri.Some? && name.namespaceUri.value != XMLNS && name.localName == Some("xmlns")
    ensures Declaration(name) && !IsNamespaceAttr(name) <==>
      name.namespaceUri.None? && "xmlns:" <= name.nodeName
  {
  }

  /** The attributes `@name` can select: those called `name` that are not
      namespace declarations. */
  predicate Selectable(a: Attr, name: string)
  {
    a.name.nodeName == name && !Declaration(a.name)
  }

  /** The index of the first selectable attribute called `name`. */
  function FirstAttr(attrs: seq<Attr>, name: string): (r: Option<nat>)
    ensures r.Some? ==> r.value < |attrs| && Selectable(attrs[r.value], name)
    ensures r.Some? ==> forall j :: 0 <= j < r.value ==> !Selectable(attrs[j], name)
    ensures r.None? ==> forall j :: 0 <= j < |attrs| ==> !Selectable(attrs[j], name)
  {
    if |attrs| == 0 then None
    else if Selectable(attrs[0], name) then Some(0)
    else match FirstAttr(attrs[1..], name)
      case None => None
      case Some(j) => Some(j + 1)
  }

  /** One step from a context: `node()[k]` among the children of the
      document or of a node, `@name` among the attributes of a node. Text
      nodes and attributes have neither children nor attributes. */
  function SelectStep(doc: Tree, ctx: Selected, st: Step): Option<Selected>
  {
    if !ctx.SNode? || !IsPath(doc, ctx.path) then None
    else
      var p := ctx.path;
      match st
      case NodeStep(k) =>
        var v := View(ChildrenAt(doc, p), |ChildrenAt(doc, p)|);
        if 1 <= k <= |v| then
          Some(EntryTarget(p, v[k - 1]))
        else None
      case AttrStep(name) =>
        if |p| == 0 then None
        else
          match FirstAttr(NodeAt(doc, p).attributes, name)
          case None => None
          case Some(j) => Some(SAttribute(p, j))
  }

  /** The node an absolute location path selects, if any. */
  function Select(doc: Tree, steps: seq<Step>): Option<Selected>
  {
    if |steps| == 0 then Some(SNode([]))
    else
      match Select(doc, steps[..|steps| - 1])
      case None => None
      case Some(ctx) => SelectStep(doc, ctx, steps[|steps| - 1])
  }

  /** The path string, parsed and evaluated. */
  function SelectString(doc: Tree, str: string): Option<Selected>
  {
    match Parse(str)
    case None => None
    case Some(steps) => Select(doc, steps)
  }

  /** The conditions under which the node at `path` can be found again: every
      sibling list along the path is stable, no node on it is a document type
      node, and every proper ancestor is an element. */
  predicate Addressable(doc: Tree, path: seq<nat>)
    requires IsPath(doc, path)
    decreases |path|
  {
    || |path| == 0
    || (&& Stable(SiblingsOf(doc, path))
        && NodeAt(doc, path).kind != DocumentType
        && (|path| > 1 ==> NodeAt(doc, Parent(path)).kind == Element)
        && Addressable(doc, Parent(path)))
  }

  lemma {:induction false} AddressableHasNoDocType(doc: Tree, path: seq<nat>)
    requires IsPath(doc, path) && Addressable(doc, path)
    ensures !DocTypeOnPath(doc, path)
    decreases |path|
  {
    if |path| > 0 {
      AddressableHasNoDocType(doc, Parent(path));
    }
  }

  /** Where an entry of XPath's view of the children of `p` leads. */
  function EntryTarget(p: seq<nat>, e: Entry): Selected
  {
    match e
    case Single(i) => SNode(p + [i])
    case Merged(first, _) => SText(p, first)
  }

  /** The `node()[k]` step from the node at `parent`, evaluated at the child
      number of its child `p`. */
  lemma SelectChild(doc: Tree, parent: seq<nat>, s: seq<Node>, p: nat, k: nat)
    requires IsPath(doc, parent) && s == ChildrenAt(doc, parent)
    requires p < |s| && Stable(s) && s[p].kind != DocumentType
    requires k == XPathChildNumber(s, p)
    ensures SelectStep(doc, SNode(parent), NodeStep(k))
      == Some(if TextAt(s, p) then SText(parent, TextRunStart(s, p)) else SNode(parent + [p]))
  {
    ChildNumberEntry(s, p);
    SelectStepNode(doc, parent, k);
    EntryTargetOf(parent, View(s, |s|)[k - 1], p, TextAt(s, p), TextRunStart(s, p));
  }

  lemma EntryTargetOf(parent: seq<nat>, e: Entry, p: nat, text: bool, start: nat)
    requires if text then e.Merged? && e.first == start else e == Single(p)
    ensures EntryTarget(parent, e) == if text then SText(parent, start) else SNode(parent + [p])
  {
  }

  lemma SelectStepNode(doc: Tree, parent: seq<nat>, k: nat)
    requires IsPath(doc, parent)
    ensures var v := View(ChildrenAt(doc, parent), |ChildrenAt(doc, parent)|);
      1 <= k <= |v| ==> SelectStep(doc, SNode(parent), NodeStep(k)) == Some(EntryTarget(parent, v[k - 1]))
  {
  }

  /** Evaluating one more step continues from what the front selects. */
  lemma SelectSnoc(doc: Tree, front: seq<Step>, st: Step, ctx: Selected)
    requires Select(doc, front) == Some(ctx)
    ensures Select(doc, front + [st]) == SelectStep(doc, ctx, st)
  {
    assert (front + [st])[..|front|] == front;
  }

  /** The steps `GetXPath` builds for a node select it again: the node
      itself, or, for a text sibling, the merged text node that starts where
      its run starts. */
  lemma {:induction false} GetXPathSelects(doc: Tree, path: seq<nat>)
    requires |path| > 0 && IsPath(doc, path) && Addressable(doc, path)
    ensures GetXPath(doc, ChildNode(path)).Success?
    ensures var s, p := SiblingsOf(doc, path), Last(path);
      Select(doc, GetXPath(doc, ChildNode(path)).value)
        == Some(if TextAt(s, p) then SText(Parent(path), TextRunStart(s, p)) else SNode(path))
    decreases |path|
  {
    AddressableHasNoDocType(doc, path);
    var steps := GetXPath(doc, ChildNode(path)).value;
    var k := XPathChildNumber(SiblingsOf(doc, path), Last(path));
    SelectChild(doc, Parent(path), SiblingsOf(doc, path), Last(path), k);
    assert Parent(path) + [Last(path)] == path;
    if |path| == 1 {
      assert steps == [] + [NodeStep(k)];
      SelectSnoc(doc, [], NodeStep(k), SNode([]));
      assert Parent(path) == [];
    } else {
      var parent := Parent(path);
      GetXPathSelects(doc, parent);
      var front := GetXPath(doc, ChildNode(parent)).value;
      assert !TextAt(SiblingsOf(doc, parent), Last(parent));
      assert steps == front + [NodeStep(k)];
      SelectSnoc(doc, front, NodeStep(k), SNode(parent));
    }
  }

  /** Attribute names are unique on an element. */
  predicate UniqueNames(attrs: seq<Attr>)
  {
    forall a, b :: 0 <= a < b < |attrs| ==> attrs[a].name.nodeName != attrs[b].name.nodeName
  }

  /** An attribute that is not a declaration is found under its own name at
      or before its own index, and at it when names are unique. */
  lemma FirstAttrOfPresent(attrs: seq<Attr>, i: nat)
    requires i < |attrs| && !Declaration(attrs[i].name)
    ensures FirstAttr(attrs, attrs[i].name.nodeName).Some?
    ensures FirstAttr(attrs, attrs[i].name.nodeName).value <= i
    ensures UniqueNames(attrs) ==> FirstAttr(attrs, attrs[i].name.nodeName).value == i
  {
  }

  /** An element's path selects the element itself. */
  lemma GetXPathSelectsElement(doc: Tree, path: seq<nat>)
    requires |path| > 0 && IsPath(doc, path) && Addressable(doc, path)
    requires NodeAt(doc, path).kind == Element
    ensures GetXPath(doc, ChildNode(path)).Success?
    ensures Select(doc, GetXPath(doc, ChildNode(path)).value) == Some(SNode(path))
  {
    GetXPathSelects(doc, path);
    assert !TextAt(SiblingsOf(doc, path), Last(path));
  }

  lemma SelectStepAttr(doc: Tree, owner: seq<nat>, name: string)
    requires |owner| > 0 && IsPath(doc, owner)
    ensures var j := FirstAttr(NodeAt(doc, owner).attributes, name);
      j.Some? ==> SelectStep(doc, SNode(owner), AttrStep(name)) == Some(SAttribute(owner, j.value))
  {
  }

  /** The path of an attribute of an element that is not a namespace
      declaration selects the first such attribute of that name, which is
      the attribute itself when names are unique. */
  lemma GetXPathSelectsAttribute(doc: Tree, owner: seq<nat>, i: nat)
    requires Attached(doc, AttributeNode(owner, i))
    requires Addressable(doc, owner) && NodeAt(doc, owner).kind == Element
    requires !Declaration(NodeAt(doc, owner).attributes[i].name)
    ensures GetXPath(doc, AttributeNode(owner, i)).Success?
    ensures var attrs := NodeAt(doc, owner).attributes;
      var j := FirstAttr(attrs, attrs[i].name.nodeName);
      && j.Some?
      && Select(doc, GetXPath(doc, AttributeNode(owner, i)).value) == Some(SAttribute(owner, j.value))
    ensures UniqueNames(NodeAt(doc, owner).attributes) ==>
      Select(doc, GetXPath(doc, AttributeNode(owner, i)).value) == Some(SAttribute(owner, i))
  {
    GetXPathSelectsElement(doc, owner);
    var attrs := NodeAt(doc, owner).attributes;
    var name := attrs[i].name.nodeName;
    var front := GetXPath(doc, ChildNode(owner)).value;
    assert GetXPath(doc, AttributeNode(owner, i)).value == front + [AttrStep(name)];
    FirstAttrOfPresent(attrs, i);
    SelectStepAttr(doc, owner, name);
    SelectSnoc(doc, front, AttrStep(name), SNode(owner));
  }

  /** A declaration is never found under its own name when names are unique. */
  lemma FirstAttrOfDeclaration(attrs: seq<Attr>, i: nat)
    requires i < |attrs| && Declaration(attrs[i].name) && UniqueNames(attrs)
    ensures FirstAttr(attrs, attrs[i].name.nodeName).None?
  {
    var name := attrs[i].name.nodeName;
    forall j | 0 <= j < |attrs|
      ensures !Selectable(attrs[j], name)
    {
      NotSelectableAt(attrs, i, j);
    }
    NoneWhenNothingSelectable(attrs, name);
  }

  lemma NotSelectableAt(attrs: seq<Attr>, i: nat, j: nat)
    requires i < |attrs| && j < |attrs| && Declaration(attrs[i].name) && UniqueNames(attrs)
    ensures !Selectable(attrs[j], attrs[i].name.nodeName)
  {
    if j < i {
      assert attrs[j].name.nodeName != attrs[i].name.nodeName;
    } else if i < j {
      assert attrs[i].name.nodeName != attrs[j].name.nodeName;
    }
  }

  lemma NoneWhenNothingSelectable(attrs: seq<Attr>, name: string)
    requires forall j :: 0 <= j < |attrs| ==> !Selectable(attrs[j], name)
    ensures FirstAttr(attrs, name).None?
  {
  }

  /** `getXPath` still builds `.../@name` for a namespace declaration, and
      that path selects nothing. */
  lemma GetXPathOfDeclarationSelectsNothing(doc: Tree, owner: seq<nat>, i: nat)
    requires Attached(doc, AttributeNode(owner, i))
    requires Addressable(doc, owner) && NodeAt(doc, owner).kind == Element
    requires UniqueNames(NodeAt(doc, owner).attributes)
    requires Declaration(NodeAt(doc, owner).attributes[i].name)
    ensures GetXPath(doc, AttributeNode(owner, i)).Success?
    ensures Select(doc, GetXPath(doc, AttributeNode(owner, i)).value) == None
  {
    GetXPathSelectsElement(doc, owner);
    var attrs := NodeAt(doc, owner).attributes;
    var name := attrs[i].name.nodeName;
    var front := GetXPath(doc, ChildNode(owner)).value;
    assert GetXPath(doc, AttributeNode(owner, i)).value == front + [AttrStep(name)];
    FirstAttrOfDeclaration(attrs, i);
    SelectSnoc(doc, front, AttrStep(name), SNode(owner));
  }

  /** `<d:a xmlns:d="http://test.com"/>`, built with namespace awareness:
      the declaration is given the path `/node()[1]/@xmlns:d`, which selects
      nothing. */
  lemma DeclarationPathExample(doc: Tree)
    requires doc == Tree([Node(Element, Name("d:a", Some("a"), Some("http://test.com")), "",
      [Attr(Name("xmlns:d", Some("d"), Some(XMLNS)), "http://test.com")], [])])
    ensures IsNamespaceAttr(NodeAt(doc, [0]).attributes[0].name)
    ensures Declaration(NodeAt(doc, [0]).attributes[0].name)
    ensures GetXPath(doc, AttributeNode([0], 0)) == Success([NodeStep(1), AttrStep("xmlns:d")])
    ensures Select(doc, [NodeStep(1), AttrStep("xmlns:d")]) == None
  {
    assert Parent([0]) == [];
    IncIndexUnfold(doc.children, 0);
    assert GetXPath(doc, ChildNode([0])) == Success([NodeStep(1)]);
    assert GetXPath(doc, AttributeNode([0], 0)) == Success([NodeStep(1)] + [AttrStep("xmlns:d")]);
    assert [NodeStep(1)] + [AttrStep("xmlns:d")] == [NodeStep(1), AttrStep("xmlns:d")];
    assert Select(doc, [NodeStep(1)]) == Some(SNode([0])) by {
      SelectSnoc(doc, [], NodeStep(1), SNode([]));
      assert [] + [NodeStep(1)] == [NodeStep(1)];
      assert View(doc.children, 1) == [Single(0)];
      SelectStepNode(doc, [], 1);
      assert EntryTarget([], Single(0)) == SNode([0]) by { assert [] + [0] == [0]; }
    }
    assert FirstAttr(NodeAt(doc, [0]).attributes, "xmlns:d").None?;
    SelectSnoc(doc, [NodeStep(1)], AttrStep("xmlns:d"), SNode([0]));
  }

  /** `<d:a xmlns:d="http://test.com" d:xmlns="v"/>`: `isNamespaceAttr`
      flags `d:xmlns`, yet it is an ordinary attribute in the namespace
      `http://test.com`, and its path `/node()[1]/@d:xmlns` selects it. */
  lemma ForeignXmlnsAttributeExample(doc: Tree)
    requires doc == Tree([Node(Element, Name("d:a", Some("a"), Some("http://test.com")), "",
      [Attr(Name("xmlns:d", Some("d"), Some(XMLNS)), "http://test.com"),
       Attr(Name("d:xmlns", Some("xmlns"), Some("http://test.com")), "v")], [])])
    ensures IsNamespaceAttr(NodeAt(doc, [0]).attributes[1].name)
    ensures !Declaration(NodeAt(doc, [0]).attributes[1].name)
    ensures GetXPath(doc, AttributeNode([0], 1)) == Success([NodeStep(1), AttrStep("d:xmlns")])
    ensures Select(doc, [NodeStep(1), AttrStep("d:xmlns")]) == Some(SAttribute([0], 1))
  {
    assert Parent([0]) == [];
    IncIndexUnfold(doc.children, 0);
    assert GetXPath(doc, ChildNode([0])) == Success([NodeStep(1)]);
    assert GetXPath(doc, AttributeNode([0], 1)) == Success([NodeStep(1)] + [AttrStep("d:xmlns")]);
    assert [NodeStep(1)] + [AttrStep("d:xmlns")] == [NodeStep(1), AttrStep("d:xmlns")];
    assert Select(doc, [NodeStep(1)]) == Some(SNode([0])) by {
      SelectSnoc(doc, [], NodeStep(1), SNode([]));
      assert [] + [NodeStep(1)] == [NodeStep(1)];
      assert View(doc.children, 1) == [Single(0)];
      SelectStepNode(doc, [], 1);
      assert EntryTarget([], Single(0)) == SNode([0]) by { assert [] + [0] == [0]; }
    }
    var attrs := NodeAt(doc, [0]).attributes;
    assert !Selectable(attrs[0], "d:xmlns");
    assert FirstAttr(attrs, "d:xmlns") == Some(1) by {
      assert attrs[1..] == [attrs[1]];
      assert FirstAttr(attrs[1..], "d:xmlns") == Some(0);
    }
    SelectStepAttr(doc, [0], "d:xmlns");
    SelectSnoc(doc, [NodeStep(1)], AttrStep("d:xmlns"), SNode([0]));
  }

  /** The steps of a node carry only well-formed attribute names. */
  lemma GetXPathWellFormed(doc: Tree, n: NodeRef)
    requires Attached(doc, n) && GetXPath(doc, n).Success?
    requires n.AttributeNode? ==> WellFormedName(NodeAt(doc, n.owner).attributes[n.index].name.nodeName)
    ensures WellFormedSteps(GetXPath(doc, n).value)
  {
    var steps := GetXPath(doc, n).value;
    if n.AttributeNode? {
      var front := GetXPath(doc, ChildNode(n.owner)).value;
      assert steps == front + [AttrStep(NodeAt(doc, n.owner).attributes[n.index].name.nodeName)];
    }
  }

  /** The string `getXPath` returns reads back as the steps it was built
      from, so evaluating the string selects what evaluating the steps
      selects. */
  lemma XPathStringParses(doc: Tree, n: NodeRef)
    requires Attached(doc, n) && GetXPath(doc, n).Success?
    requires n.AttributeNode? ==> WellFormedName(NodeAt(doc, n.owner).attributes[n.index].name.nodeName)
    ensures XPathString(doc, n).Success?
    ensures Parse(XPathString(doc, n).value) == Some(GetXPath(doc, n).value)
    ensures SelectString(doc, XPathString(doc, n).value) == Select(doc, GetXPath(doc, n).value)
  {
    XPathStringIsSerialized(doc, n);
    GetXPathWellFormed(doc, n);
    ParseSerialize(GetXPath(doc, n).value);
  }
}

=== FILE: wrappers.dfy ===
/** Failure-compatible wrappers: `Option` stands in for a Java reference that
    may be null, `Result` for a computation that may throw. */
module Wrappers {

  datatype Option<+T> = None | Some(value: T) {

    predicate IsFailure() {
      None?
    }

    function PropagateFailure<U>(): Option<U>
      requires None?
    {
      None
    }

    function Extract(): T
      requires Some?
    {
      value
    }
  }

  datatype Result<+R, +E> = Success(value: R) | Failure(error: E) {

    predicate IsFailure() {
      Failure?
    }

    function PropagateFailure<U>(): Result<U, E>
      requires Failure?
    {
      Failure(error)
    }

    function Extract(): R
      requires Success?
    {
      value
    }
  }
}

=== FILE: xpath_gen.dfy ===
/** `getXPath`: the positional location path of a node, assembled by walking
    up its ancestors. The path is built as a list of steps; `XPathString`
    builds the string the way `XPathGen.getXPath` concatenates it, and
    `XPathStringIsSerialized` shows the two agree. */
module XPathGen {
  import opened Wrappers
  import opened Dom
  import opened NodeClassifier
  import opened ChildNumbers
  import opened PathSyntax

  /** The physical child positions leading to the node, or to the owner
      element of an attribute. */
  function PathOf(n: NodeRef): seq<nat>
  {
    match n
    case DocumentNode => []
    case ChildNode(path) => path
    case AttributeNode(owner, _) => owner
    case Detached => []
  }

  /** The number of steps in the node's location path. */
  function Depth(n: NodeRef): nat
  {
    |PathOf(n)| + if n.AttributeNode? then 1 else 0
  }

  /** Some node on the path (the last one included) is a document type node. */
  predicate DocTypeOnPath(doc: Tree, path: seq<nat>)
    requires IsPath(doc, path)
    decreases |path|
  {
    |path| > 0 && (NodeAt(doc, path).kind == DocumentType || DocTypeOnPath(doc, Parent(path)))
  }

  /** `getXPath`, by kind: an attribute extends its owner's path with
      `@name`; the document is the root path; a document type node cannot be
      addressed; a child of the document is `node()[k]` alone; any other node
      extends its parent's path with `node()[k]`, where `k` is its child
      number. */
  function GetXPath(doc: Tree, n: NodeRef): (r: Result<seq<Step>, Error>)
    requires Attached(doc, n)
    ensures r.Failure? <==> DocTypeOnPath(doc, PathOf(n))
    ensures r.Failure? ==> r.error == DocumentTypeNode
    ensures r.Success? ==> |r.value| == Depth(n)
    ensures r.Success? ==> forall i :: 0 <= i < |r.value| ==>
      (r.value[i].AttrStep? <==> n.AttributeNode? && i == |r.value| - 1)
    decreases Depth(n)
  {
    match n
    case AttributeNode(owner, i) =>
      var ownerPath :- GetXPath(doc, ChildNode(owner));
      Success(ownerPath + [AttrStep(NodeAt(doc, owner).attributes[i].name.nodeName)])
    case DocumentNode =>
      Success([])
    case ChildNode(path) =>
      if NodeAt(doc, path).kind == DocumentType then
        Failure(DocumentTypeNode)
      else
        // The node has a parent, so the constructor's checks pass.
        var cn := NewChildNumber(doc, Some(n)).value;
        if |path| == 1 then
          Success([NodeStep(cn.GetXPath())])
        else
          var parentPath :- GetXPath(doc, ChildNode(Parent(path)));
          Success(parentPath + [NodeStep(cn.GetXPath())])
  }

  /** The child number of the `i`-th node on the path among its siblings. */
  function ChildNumberAt(doc: Tree, path: seq<nat>, i: nat): nat
    requires IsPath(doc, path) && i < |path|
  {
    ParentIsPath(doc, path, i + 1);
    var prefix := path[..i + 1];
    assert Parent(prefix) == path[..i] && Last(prefix) == path[i];
    XPathChildNumber(SiblingsOf(doc, prefix), path[i])
  }

  /** Closed form: a node below the document, with no document type node on
      its path, gets one `node()` step per level, holding that level's child
      number. */
  lemma {:induction false} GetXPathClosedForm(doc: Tree, path: seq<nat>)
    requires Attached(doc, ChildNode(path))
    requires !DocTypeOnPath(doc, path)
    ensures GetXPath(doc, ChildNode(path)).Success?
    ensures var steps := GetXPath(doc, ChildNode(path)).value;
      && |steps| == |path|
      && forall i :: 0 <= i < |path| ==> steps[i] == NodeStep(ChildNumberAt(doc, path, i))
    decreases |path|
  {
    var steps := GetXPath(doc, ChildNode(path)).value;
    var k := XPathChildNumber(SiblingsOf(doc, path), Last(path));
    assert ChildNumberAt(doc, path, |path| - 1) == k by {
      assert path[..|path|] == path;
    }
    if |path| > 1 {
      var parent := Parent(path);
      GetXPathClosedForm(doc, parent);
      var front := GetXPath(doc, ChildNode(parent)).value;
      assert steps == front + [NodeStep(k)];
      forall i | 0 <= i < |path| - 1
        ensures steps[i] == NodeStep(ChildNumberAt(doc, path, i))
      {
        assert path[..i + 1] == parent[..i + 1];
        assert ChildNumberAt(doc, path, i) == ChildNumberAt(doc, parent, i);
      }
    }
  }

  /** The parent's path is a strict prefix of the child's, and an attribute's
      path is its owner's path plus one `@` step carrying the attribute's
      node name. */
  lemma PathExtendsParent(doc: Tree, n: NodeRef)
    requires Attached(doc, n)
    requires (n.ChildNode? && |n.path| > 1) || n.AttributeNode?
    requires GetXPath(doc, n).Success?
    ensures var up := if n.ChildNode? then ChildNode(Parent(n.path)) else ChildNode(n.owner);
      && GetXPath(doc, up).Success?
      && GetXPath(doc, up).value < GetXPath(doc, n).value
      && |GetXPath(doc, n).value| == |GetXPath(doc, up).value| + 1
    ensures n.AttributeNode? ==>
      GetXPath(doc, n).value == GetXPath(doc, ChildNode(n.owner)).value + [AttrStep(NodeAt(doc, n.owner).attributes[n.index].name.nodeName)]
  {
  }

  /** `getXPath` as the Java method builds its result: string concatenation. */
  function XPathString(doc: Tree, n: NodeRef): (r: Result<string, Error>)
    requires Attached(doc, n)
    ensures r.Success? ==> |r.value| > 0 && r.value[0] == '/'
    decreases Depth(n)
  {
    match n
    case AttributeNode(owner, i) =>
      var ownerPath :- XPathString(doc, ChildNode(owner));
      Success(ownerPath + "/@" + NodeAt(doc, owner).attributes[i].name.nodeName)
    case DocumentNode =>
      Success("/")
    case ChildNode(path) =>
      if NodeAt(doc, path).kind == DocumentType then
        Failure(DocumentTypeNode)
      else
        var cn := NewChildNumber(doc, Some(n)).value;
        if |path| == 1 then
          Success("/node()[" + NatToString(cn.GetXPath()) + "]")
        else
          var parentPath :- XPathString(doc, ChildNode(Parent(path)));
          Success(parentPath + "/node()[" + NatToString(cn.GetXPath()) + "]")
  }

  /** The attribute step `getXPath` appends, as a serialised step. */
  lemma AttrSnocString(prefix: seq<Step>, name: string)
    requires |prefix| > 0
    ensures Serialize(prefix) + "/@" + name == Serialize(prefix + [AttrStep(name)])
  {
    JoinSnoc(prefix, AttrStep(name));
  }

  /** The child step `getXPath` appends, as a serialised step. */
  lemma NodeSnocString(prefix: seq<Step>, k: nat)
    requires |prefix| > 0
    ensures Serialize(prefix) + "/node()[" + NatToString(k) + "]" == Serialize(prefix + [NodeStep(k)])
  {
    JoinSnoc(prefix, NodeStep(k));
  }

  /** The step of a child of the document, as a serialised step. */
  lemma NodeSingleString(k: nat)
    ensures "/node()[" + NatToString(k) + "]" == Serialize([NodeStep(k)])
  {
    JoinSnoc([], NodeStep(k));
    assert [] + [NodeStep(k)] == [NodeStep(k)];
  }

  /** The string `getXPath` concatenates is the serialisation of the step
      list, and both fail on the same nodes. */
  lemma {:induction false} XPathStringIsSerialized(doc: Tree, n: NodeRef)
    requires Attached(doc, n)
    ensures GetXPath(doc, n).Failure? ==> XPathString(doc, n) == Failure(GetXPath(doc, n).error)
    ensures GetXPath(doc, n).Success? ==> XPathString(doc, n) == Success(Serialize(GetXPath(doc, n).value))
    decreases Depth(n)
  {
    match n
    case AttributeNode(owner, i) =>
      XPathStringIsSerialized(doc, ChildNode(owner));
      if GetXPath(doc, ChildNode(owner)).Success? {
        AttrSnocString(GetXPath(doc, ChildNode(owner)).value, NodeAt(doc, owner).attributes[i].name.nodeName);
      }
    case DocumentNode =>
    case ChildNode(path) =>
      if NodeAt(doc, path).kind != DocumentType {
        var k := NewChildNumber(doc, Some(n)).value.GetXPath();
        if |path| == 1 {
          NodeSingleString(k);
        } else {
          XPathStringIsSerialized(doc, ChildNode(Parent(path)));
          if GetXPath(doc, ChildNode(Parent(path))).Success? {
            NodeSnocString(GetXPath(doc, ChildNode(Parent(path))).value, k);
          }
        }
      }
  }

  /** The document `<a>aa<b attr='test'>b<!-- comment -->c<c/></b>d</a>`. */
  function UsageDocument(): Tree
  {
    Tree([ElementNode("a", [], [
      TextNode("aa"),
      ElementNode("b", [AttrNode("attr", "test")], [TextNode("b"), CommentNode(" comment "), TextNode("c"), ElementNode("c", [], [])]),
      TextNode("d")])])
  }

  /** One level of `GetXPath` below the top: the parent's steps plus this
      node's child number. */
  lemma GetXPathStep(doc: Tree, path: seq<nat>, parentSteps: seq<Step>, k: nat)
    requires Attached(doc, ChildNode(path)) && |path| > 1
    requires NodeAt(doc, path).kind != DocumentType
    requires GetXPath(doc, ChildNode(Parent(path))) == Success(parentSteps)
    requires XPathChildNumber(SiblingsOf(doc, path), Last(path)) == k
    ensures GetXPath(doc, ChildNode(path)) == Success(parentSteps + [NodeStep(k)])
  {
  }

  lemma UsageShape(doc: Tree)
    requires doc == UsageDocument()
    ensures IsPath(doc, [0, 0]) && IsPath(doc, [0, 1]) && IsPath(doc, [0, 1, 1])
    ensures SiblingsOf(doc, [0]) == doc.children
    ensures SiblingsOf(doc, [0, 0]) == doc.children[0].children
    ensures SiblingsOf(doc, [0, 1]) == doc.children[0].children
    ensures SiblingsOf(doc, [0, 1, 1]) == doc.children[0].children[1].children
    ensures NodeAt(doc, [0]).kind == Element && NodeAt(doc, [0, 0]).kind == Text
    ensures NodeAt(doc, [0, 1]) == doc.children[0].children[1] && NodeAt(doc, [0, 1, 1]).kind == Comment
    ensures NodeAt(doc, [0, 1]).attributes == [AttrNode("attr", "test")]
  {
    assert Parent([0, 0]) == [0] && Parent([0, 1]) == [0] && Parent([0, 1, 1]) == [0, 1] && Parent([0]) == [];
  }

  lemma UsageChildNumbers(top: seq<Node>, a: seq<Node>, b: seq<Node>)
    requires top == UsageDocument().children
    requires a == top[0].children && b == a[1].children
    ensures XPathChildNumber(top, 0) == 1
    ensures XPathChildNumber(a, 0) == 1 && XPathChildNumber(a, 1) == 2
    ensures XPathChildNumber(b, 1) == 2
  {
    IncIndexUnfold(top, 0);
    IncIndexUnfold(a, 0);
    IncIndexUnfold(a, 1);
    ChildNumberStep(a, 1);
    IncIndexUnfold(b, 0);
    IncIndexUnfold(b, 1);
    ChildNumberStep(b, 1);
  }

  /** The element `b` is the second child of the root element `a`. */
  lemma UsageElementPath(doc: Tree)
    requires doc == UsageDocument()
    ensures Attached(doc, ChildNode([0, 1])) && GetXPath(doc, ChildNode([0, 1])) == Success([NodeStep(1), NodeStep(2)])
  {
    UsageShape(doc);
    UsageChildNumbers(doc.children, doc.children[0].children, doc.children[0].children[1].children);
    assert GetXPath(doc, ChildNode([0])) == Success([NodeStep(1)]);
    GetXPathStep(doc, [0, 1], [NodeStep(1)], 2);
    assert [NodeStep(1)] + [NodeStep(2)] == [NodeStep(1), NodeStep(2)];
  }

  /** The text `aa` is the first child of `a`. */
  lemma UsageTextPath(doc: Tree)
    requires doc == UsageDocument()
    ensures Attached(doc, ChildNode([0, 0])) && GetXPath(doc, ChildNode([0, 0])) == Success([NodeStep(1), NodeStep(1)])
  {
    UsageShape(doc);
    UsageChildNumbers(doc.children, doc.children[0].children, doc.children[0].children[1].children);
    assert GetXPath(doc, ChildNode([0])) == Success([NodeStep(1)]);
    GetXPathStep(doc, [0, 0], [NodeStep(1)], 1);
    assert [NodeStep(1)] + [NodeStep(1)] == [NodeStep(1), NodeStep(1)];
  }

  /** The comment inside `b` follows the text `b`, so it is the second child. */
  lemma UsageCommentPath(doc: Tree)
    requires doc == UsageDocument()
    ensures Attached(doc, ChildNode([0, 1, 1]))
    ensures GetXPath(doc, ChildNode([0, 1, 1])) == Success([NodeStep(1), NodeStep(2), NodeStep(2)])
  {
    UsageShape(doc);
    UsageChildNumbers(doc.children, doc.children[0].children, doc.children[0].children[1].children);
    UsageElementPath(doc);
    GetXPathStep(doc, [0, 1, 1], [NodeStep(1), NodeStep(2)], 2);
    assert [NodeStep(1), NodeStep(2)] + [NodeStep(2)] == [NodeStep(1), NodeStep(2), NodeStep(2)];
  }

  /** The attribute of `b`, as steps and as the string
      `/node()[1]/node()[2]/@attr`. */
  lemma UsageAttributePath(doc: Tree)
    requires doc == UsageDocument()
    ensures Attached(doc, AttributeNode([0, 1], 0))
    ensures GetXPath(doc, AttributeNode([0, 1], 0)) == Success([NodeStep(1), NodeStep(2), AttrStep("attr")])
    ensures XPathString(doc, AttributeNode([0, 1], 0)) == Success("/node()[1]/node()[2]/@attr")
  {
    UsageShape(doc);
    UsageElementPath(doc);
    var steps := [NodeStep(1), NodeStep(2), AttrStep("attr")];
    assert GetXPath(doc, AttributeNode([0, 1], 0)) == Success([NodeStep(1), NodeStep(2)] + [AttrStep("attr")]);
    assert [NodeStep(1), NodeStep(2)] + [AttrStep("attr")] == steps;
    SerializeExample();
    XPathStringIsSerialized(doc, AttributeNode([0, 1], 0));
  }

  /** `<!DOCTYPE a><a>text</a>`: the document type declaration has no path,
      and the root element is the first child XPath sees. */
  lemma DocTypePrologExample(doc: Tree)
    requires doc == Tree([DocTypeNode("a"), ElementNode("a", [], [TextNode("text")])])
    ensures GetXPath(doc, ChildNode([0])) == Failure(DocumentTypeNode)
    ensures GetXPath(doc, ChildNode([1])) == Success([NodeStep(1)])
  {
    assert Parent([1]) == [] && Parent([0]) == [];
    var top := doc.children;
    IncIndexUnfold(top, 0);
    IncIndexUnfold(top, 1);
    ChildNumberStep(top, 1);
  }

  /** The text inside the root element of that document. */
  lemma DocTypePrologTextExample(doc: Tree)
    requires doc == Tree([DocTypeNode("a"), ElementNode("a", [], [TextNode("text")])])
    ensures GetXPath(doc, ChildNode([1, 0])) == Success([NodeStep(1), NodeStep(1)])
  {
    DocTypePrologExample(doc);
    assert Parent([1, 0]) == [1];
    var a := doc.children[1].children;
    IncIndexUnfold(a, 0);
    GetXPathStep(doc, [1, 0], [NodeStep(1)], 1);
    assert [NodeStep(1)] + [NodeStep(1)] == [NodeStep(1), NodeStep(1)];
  }

  /** `<!-- comment --><a>text</a>`: the comment is the first child of the
      document, so the root element is the second. */
  lemma CommentPrologExample(doc: Tree)
    requires doc == Tree([CommentNode(" comment "), ElementNode("a", [], [TextNode("text")])])
    ensures GetXPath(doc, ChildNode([0])) == Success([NodeStep(1)])
    ensures GetXPath(doc, ChildNode([1])) == Success([NodeStep(2)])
  {
    assert Parent([1]) == [] && Parent([0]) == [];
    var top := doc.children;
    IncIndexUnfold(top, 0);
    IncIndexUnfold(top, 1);
    ChildNumberStep(top, 1);
  }
}
